=== FILE: README.md ===
# mkdocs-no-3rd-party in Dafny

This is a model of the MkDocs plugin `No3rdPartyPlugin`. Once MkDocs has rendered a page or an HTML template, the plugin finds the remote `<script src>` and `<link rel="stylesheet" href>` references in it. It points each one at a local copy named by the SHA-256 digest of its URL, and it downloads every copy that does not exist yet into `site_dir/directory/`.

Here is how the model represents the plugin:

- **The page.** The page is the parser's output: a sequence of nodes in document order (`Document.Node`). An element carries its tag, its attributes and its `rel` token list.
- **The configuration.** `Document.Config` holds the options `download_js`, `download_css` and `directory`, together with the host's `site_dir`.
- **Hashing.** The hash is a function parameter (`Localizer.Hasher`). Lemmas that need the shape of a SHA-256 hex digest require it explicitly (`IsSha256Hex`). Lemmas that need collision-freedom assume it only over the URLs involved (`CollisionFreeOn`), never over all strings. No function into 64-character digests is injective on all strings.
- **The network.** The network is a parameter `online: string -> bool`. A `false` answer is a fetch or write that raises. The exception is not caught, so the page is aborted (`Plugin.Outcome.Aborted`). Files written before the failure stay on disk.
- **The filesystem.** The filesystem is the set of paths that exist (`set<string>`).

The model is split into modules:

- `Strings`: Python's `startswith`, `endswith`, `count`, `split`, `join` and `*` on strings.
- `Paths`: `_is_relative_url`, `os.path.join` (posix semantics) and `_find_rel_path`. It also holds relative-reference resolution (RFC 3986 section 5.2.4, leading `../` only). This resolution is an independent statement of where the embed path leads.
- `OrderedMap`: a Python `dict` as an association list. Assignment appends a new key and keeps an existing key in place. `FirstOccurrences` is the reference for the dict's key order.
- `Localizer`: the two scan loops of `_html_proc` and the URL map they build. `Candidate` mirrors the loop bodies test by test. `Localizable` is the flat statement of which elements qualify.
- `Fetcher`: the download loop over the URL map.
- `Plugin`: `_html_proc`, `on_post_page` and `on_post_template`.
- `Properties`: end-to-end properties. These are deduplication, re-runs, the destination layout, and a worked example: a page at `guide/` with one remote script and `directory = "vendor"`.

One behaviour is modelled as written. It concerns a URL that is both a localized script's `src` and a localized stylesheet's `href`:

- The link loop assigns last, so the URL map keeps only the `.css` destination (`Properties.SharedUrlEndsAtStylesheetCopy`).
- The `<script>` is still rewritten to the `.js` copy. When no two of the page's URLs share a digest, processing the page never creates that file (`Properties.SharedUrlScriptCopyNotFetched`).

"Not downloaded twice" holds per URL and kind, not per URL. Across pages, a URL is not fetched again once its file for the same kind exists (`Properties.CrossPageNoRefetch`). A URL used as a script on one page and as a stylesheet on the next is downloaded on both, into a `.js` and a `.css` file. `Properties.SharedUrlFetchedOncePerKind` shows this for an empty asset directory and a fetch that succeeds.

## Model

| member | source | states |
|---|---|---|
| Paths.IsRelativeUrl | mkdocs_no_3rd_party/plugin.py:25-27 | A URL is absolute exactly when it begins with `http` followed by `://` or `s://`. Every other string, the empty one included, is relative. |
| Paths.RelativeUrlBoundary | mkdocs_no_3rd_party/plugin.py:25-27 | Only the exact, case-sensitive prefixes `http://` and `https://` make a URL absolute. Protocol-relative `//host`, `ftp://`, `data:`, `HTTP://`, `http:/`, root-relative paths and the empty string all count as relative. |
| Paths.AbsoluteUrlShape | mkdocs_no_3rd_party/plugin.py:25-27 | An absolute URL has at least 7 characters, starts with `http`, and in particular is non-empty. So the source's separate emptiness test never decides anything by itself. |
| Paths.PathJoin | mkdocs_no_3rd_party/plugin.py:64-66 | `os.path.join`: a component that starts with `/` is the whole result. A relative component is appended under the head, adding at most one `/`. |
| Paths.JoinLastComponent | mkdocs_no_3rd_party/plugin.py:64-66 | A component that does not start with `/`, joined to any head, is the whole result or ends it after a `/`. |
| Paths.PathJoinInjective | mkdocs_no_3rd_party/plugin.py:64-66 | Joining a fixed head to two relative tails gives equal paths only when the tails are equal. |
| Paths.FindRelPath | mkdocs_no_3rd_party/plugin.py:40-47 | Without a page the embed path is `/directory/file`. For a page it is one `../` per `/` in the page URL, followed by `directory/file`, and a URL with no `/` gets no prefix. The body counts the parts of `split("/")` as the source does. |
| Strings.Split | mkdocs_no_3rd_party/plugin.py:46 | `str.split` on `/` gives one more part than there are separators, and no part contains the separator. |
| Strings.JoinSplit | mkdocs_no_3rd_party/plugin.py:46 | `"/".join(url.split("/")) == url`: splitting loses nothing. |
| Paths.PageDirectory | mkdocs_no_3rd_party/plugin.py:46 | The page's base directory has exactly as many segments as the page URL has `/`, which is the source's drop-down count. |
| Paths.ResolveClimbs | mkdocs_no_3rd_party/plugin.py:47 | k leading `../` resolved from a directory at least k deep climb exactly k segments. |
| Paths.EmbedPathReachesSiteRoot | mkdocs_no_3rd_party/plugin.py:40-47 | The embed path written for a page, resolved from that page's URL, names `directory/file` at the site root, whatever the page's depth. This holds when `directory` is neither `..` nor starts with `../`. |
| OrderedMap.Put | mkdocs_no_3rd_party/plugin.py:68 | `urls[src] = file_path`: the key maps to the new value and other keys are untouched. A new key is appended to the iteration order, an existing key keeps its position, and keys stay unique. |
| OrderedMap.FirstOccurrences | mkdocs_no_3rd_party/plugin.py:92 | The reference order of the dict's keys: each element once, and the same elements as the input. |
| OrderedMap.FirstOccurrencesAbsorb | mkdocs_no_3rd_party/plugin.py:56-89 | Deduplicating the script loop's keys before the link loop appends to them gives the same order as deduplicating all URLs at once. |
| Localizer.LocalName | mkdocs_no_3rd_party/plugin.py:63 | The file name ends in the kind's extension. For a SHA-256 hex digest it is 64 characters plus the extension, with no `/`. The link loop builds it the same way at line 84. |
| Localizer.LocalNameDigits | mkdocs_no_3rd_party/plugin.py:63 | For a SHA-256 hex digest, the name's first 64 characters are hex digits. |
| Localizer.Destination | mkdocs_no_3rd_party/plugin.py:64-66 | Unless `directory` is absolute, `os.path.join(site_dir, directory, name)` for a file name that does not start with `/` begins with the string `site_dir`. The link loop does the same at lines 85-87. |
| Localizer.DestinationLastComponent | mkdocs_no_3rd_party/plugin.py:64-66 | A file name that does not start with `/` is the whole destination or ends it after a `/`. |
| Localizer.AssetDestination | mkdocs_no_3rd_party/plugin.py:63-66 | With a hex digest, and unless `directory` is absolute, the path of a URL's copy begins with the string `site_dir`. |
| Localizer.AssetDestinationLastComponent | mkdocs_no_3rd_party/plugin.py:63-66 | With a hex digest, the copy is a file named `<digest><ext>` as the last component of its destination. |
| Localizer.Localized | mkdocs_no_3rd_party/plugin.py:67 | An element one loop localizes keeps its tag, `rel` and attribute names. Only its URL attribute changes, to the embed path of its local copy. Any other node is returned unchanged. The link loop does the same at line 88. |
| Localizer.Rewritten | mkdocs_no_3rd_party/plugin.py:58-89 | Both loops together change a node only when it is localizable as an enabled kind. Even then only its `src` or `href` changes; the tag, `rel` and attribute names stay. |
| Localizer.Candidate | mkdocs_no_3rd_party/plugin.py:58-82 | The loop tests accept an element exactly when it is `Localizable`: a `<script>` with an absolute `src`, or a `<link>` with an absolute `href` whose first `rel` token maps to an extension. A match yields the element's URL and the `.js` or `.css` extension. |
| Localizer.LinkCandidateBoundary | mkdocs_no_3rd_party/plugin.py:73-82 | Only the first `rel` token counts, and it is compared case-sensitively. An empty `rel`, or a missing or protocol-relative `href`, rejects the link. |
| Localizer.ScriptCandidateBoundary | mkdocs_no_3rd_party/plugin.py:60-62 | An empty or root-relative `src`, a missing `src`, or the wrong tag rejects the element. An `https://` source is accepted with the `.js` extension. |
| Localizer.Pass | mkdocs_no_3rd_party/plugin.py:60-68 | One scan loop keeps the number of nodes. It rewrites each localizable node's URL attribute to its embed path and leaves every other node unchanged. |
| Localizer.PassKeys | mkdocs_no_3rd_party/plugin.py:56-68 | After a loop the map's keys are still unique. They are the old keys followed by the loop's new URLs, in order of first occurrence. |
| Localizer.PassLookup | mkdocs_no_3rd_party/plugin.py:60-68 | After a loop, a URL the loop met maps to its destination (last write wins), and every other key keeps its old value. |
| Localizer.Scan | mkdocs_no_3rd_party/plugin.py:58-89 | The scan keeps the element count and order. Every element becomes its `Rewritten` form. Elements that are not `<script>` or `<link>` are unchanged. With `download_js` off no `<script>` changes, and with `download_css` off no `<link>` changes. |
| Localizer.ScriptLoopKeepsLinks | mkdocs_no_3rd_party/plugin.py:58-89 | The script loop does not change which stylesheet URLs the link loop then finds. |
| Localizer.ScanKeys | mkdocs_no_3rd_party/plugin.py:56-89 | The finished map has one key per distinct localized URL. Keys are in order of first occurrence, with the script URLs first and then the stylesheet URLs new to the map. |
| Localizer.ScanLookup | mkdocs_no_3rd_party/plugin.py:56-89 | The finished map sends a URL used by a localized `<link>` to its `.css` destination, and one used only by scripts to its `.js` destination. Any other URL is absent. |
| Plugin.ScanValues | mkdocs_no_3rd_party/plugin.py:63-89 | The destinations in the finished map are exactly the page's `Destinations`. |
| Fetcher.Fetch | mkdocs_no_3rd_party/plugin.py:91-94 | The loop only adds files, and only the map's destinations. Each request is for a key whose destination was missing, and every request but the last succeeded. It fails exactly when the last request failed, and that request is the URL reported. When it completes, every destination exists. When every destination exists already, nothing is requested. |
| Fetcher.FetchRequestsMissing | mkdocs_no_3rd_party/plugin.py:91-94 | With distinct destinations, the requests are a prefix of the missing keys in map order. They are all of them when no fetch fails. |
| Fetcher.FetchRequestsDistinct | mkdocs_no_3rd_party/plugin.py:91-94 | Over a dict, the download loop never requests the same URL twice. |
| Fetcher.MissingDistinct | mkdocs_no_3rd_party/plugin.py:91-94 | Over a dict, no URL is missing twice. |
| Fetcher.MissingMembers | mkdocs_no_3rd_party/plugin.py:92-93 | A URL is missing exactly when it is a key whose destination does not exist. |
| Fetcher.FetchIdempotent | mkdocs_no_3rd_party/plugin.py:91-94 | After a completed loop, a second loop over the same map requests nothing and cannot fail, whatever the network does. |
| Plugin.HtmlProc | mkdocs_no_3rd_party/plugin.py:49-97 | A processed page keeps its element count, and each element is its `Rewritten` form. Files are only added, and only at the page's destinations, all of which exist afterwards. Requests are absolute URLs the page asked for. An abort reports the last, failed request. A fully available network never aborts. With all destinations present nothing is requested and the filesystem is unchanged. |
| Plugin.OnPostPage | mkdocs_no_3rd_party/plugin.py:99-103 | On a page, every localized reference becomes `"../" * depth + directory/<digest><ext>`, and all of the page's destinations exist afterwards. |
| Plugin.OnPostTemplate | mkdocs_no_3rd_party/plugin.py:105-112 | A template whose name does not end in `.html` comes back unchanged, and nothing is fetched. An `.html` template gets root-absolute `/directory/<digest><ext>` references, and its destinations exist afterwards. |
| Properties.DestinationInjective | mkdocs_no_3rd_party/plugin.py:63-66 | With a 64-digit hex digest that gives the two URLs different digests when they differ, two assets share a file only if they are the same URL localized as the same kind. |
| Properties.DistinctDestinations | mkdocs_no_3rd_party/plugin.py:56-89 | When no two of the page's URLs share a digest, no two entries of the finished map share a destination. |
| Properties.RequestsNeverRepeat | mkdocs_no_3rd_party/plugin.py:91-94 | Processing a page never requests the same URL twice, whatever the hash. |
| Properties.ProcessedRequestsAreMissing | mkdocs_no_3rd_party/plugin.py:91-94 | When no two of the page's URLs share a digest, a processed page requested exactly the URLs whose expected destination was missing, in map order. |
| Properties.CrossPageNoRefetch | mkdocs_no_3rd_party/plugin.py:91-94 | After one page went through, a later page does not request a URL whose destination there is the one it had on the first page. |
| Properties.SharedUrlFetchedOncePerKind | mkdocs_no_3rd_party/plugin.py:63-94 | Starting from an empty asset directory, with the fetch succeeding, a URL that is a `<script src>` on one page and a stylesheet `<link href>` on the next is requested on both pages, since the two kinds have different files. |
| Properties.RerunRequestsNothing | mkdocs_no_3rd_party/plugin.py:91-94 | Processing a page again after it went through issues no request, cannot fail and gives the same page. |
| Properties.SameUrlSameEmbed | mkdocs_no_3rd_party/plugin.py:67 | All elements of one kind that reference the same URL get the same new value. |
| Properties.SharedUrlEndsAtStylesheetCopy | mkdocs_no_3rd_party/plugin.py:68-89 | For a URL used by both a script and a stylesheet, the map keeps the `.css` destination. |
| Properties.SharedUrlScriptCopyNotDestination | mkdocs_no_3rd_party/plugin.py:63-89 | For such a URL, when no two of the page's URLs share a digest, the `.js` file the script now points at is not one of the page's destinations. |
| Properties.SharedUrlScriptCopyNotFetched | mkdocs_no_3rd_party/plugin.py:91-94 | So processing the page creates that `.js` file only if it already existed. |
| Properties.NoRemoteAssetsNoChange | mkdocs_no_3rd_party/plugin.py:49-97 | A page with no remote asset of an enabled kind comes back identical, with the filesystem unchanged and nothing fetched. |
| Properties.NoneLocalizable | mkdocs_no_3rd_party/plugin.py:58-89 | Without localizable elements of an enabled kind, the page asks for no URL of that kind. |
| Properties.PageEmbedsResolveToLocalCopies | mkdocs_no_3rd_party/plugin.py:99-103 | Each rewritten reference on a processed page, resolved from that page's URL, names the local copy under `directory` at the site root. This holds when `directory` is neither `..` nor starts with `../`. |
| Properties.DestinationLayout | mkdocs_no_3rd_party/plugin.py:63-66 | For a plain `site_dir` and a relative `directory`, a copy is stored at `site_dir/directory/<digest><ext>`. |
| Properties.AbsoluteDirectoryLeavesSite | mkdocs_no_3rd_party/plugin.py:64-66 | A `directory` that starts with `/` replaces `site_dir` in the destination. |
| Properties.OneAssetRequested | mkdocs_no_3rd_party/plugin.py:58-89 | A page of one localizable element asks for its URL as that element's kind and for nothing as the other kind. |
| Properties.OneAssetScan | mkdocs_no_3rd_party/plugin.py:58-89 | A page holding one localizable script or stylesheet is rewritten at that element. Its map is that URL with the destination for the element's kind. |
| Properties.SingleRemoteScriptScan | mkdocs_no_3rd_party/plugin.py:58-68 | In the worked example the script's `src` becomes `../vendor/<digest>.js`, and the map is `{url: site/vendor/<digest>.js}`. |
| Properties.ScenarioCached | mkdocs_no_3rd_party/plugin.py:91-94 | In the worked example with the copy already on disk, the page comes back with `src` set to `../vendor/<digest>.js`, no request and an unchanged filesystem. |
| Properties.ScenarioDownloads | mkdocs_no_3rd_party/plugin.py:91-94 | In the worked example with the copy missing and the fetch succeeding, the URL is the single request and `site/vendor/<digest>.js` exists afterwards. |
| Properties.ScenarioOffline | mkdocs_no_3rd_party/plugin.py:91-94 | In the worked example with the copy missing and the fetch failing, the page is aborted at that URL and no file is written. |

## Left out

- The network fetch, `os.makedirs` and the chunked write of `_download` (plugin.py:29-38) are a single success/failure answer from the `online` parameter. A successful download adds its destination to the set of existing paths. Directories are not tracked, since no destination is a directory.
- A failure halfway through writing a file is out of scope. The model treats a failed download as writing nothing, whereas the source may leave a partial file that a later run would then skip.
- HTML parsing and serialisation (`BeautifulSoup(content, "html.parser")`, `str(soup)`) are out of scope. The page is the parsed node sequence, and the result is the rewritten node sequence.
- SHA-256 is a parameter, because the model does not compute hashes. Properties that rely on digest shape require it as a hypothesis. Properties that rely on collision-freedom assume it only for the URLs involved: the two URLs compared, or the URLs of one page.
- `config_scheme` validation and the plugin's registration with MkDocs are out of scope. Option types are Dafny types, and the declared defaults are `Document.DefaultConfig`.
- The `Page` object is only its URL. The source's `if not page` test never sees a page that is present but falsy.
- Concurrent builds writing the same asset directory are out of scope: the check-then-write race is not modelled.
- Packaging (`setup.py`) is not part of this model.
- Localizer.Destination: the contract says only that the path string begins with `site_dir`. A `directory` containing `..` segments can still lead outside the site directory on disk, because `os.path.join` does not normalise paths.
- Localizer.AssetDestination: the same string-prefix contract as `Destination`, with the same `..` caveat.
- Paths.EmbedPathReachesSiteRoot: not promised when `directory` is `..` or starts with `../`. The embed path then climbs above the site root, where resolution stops at the root, so it does not name `directory/file`. The same limit applies to `Properties.PageEmbedsResolveToLocalCopies`.

=== FILE: document.dfy ===
/** The parsed page and the plugin's configuration. */
module Document {

  /** One node of the parsed page, in document order (the order in which the
      parser's `find_all` visits elements). An element carries its lower-case
      tag name, its single-valued attributes, and the whitespace-separated
      tokens of its `rel` attribute, which the parser hands out as a list
      (empty when the attribute is absent or blank). Everything else in the
      page is opaque text. */
  datatype Node =
    | Element(tag: string, attrs: map<string, string>, rel: seq<string>)
    | Text(content: string)

  /** The plugin options together with the host's `site_dir`. */
  datatype Config = Config(downloadJs: bool, downloadCss: bool, directory: string, siteDir: string)

  /** The declared option defaults. */
  function DefaultConfig(siteDir: string): Config
  {
    Config(downloadJs := true, downloadCss := true, directory := "3rd_party", siteDir := siteDir)
  }

  /** The two kinds of remote asset the plugin localizes. */
  datatype Kind = Script | Stylesheet

  function TagName(kind: Kind): string
  {
    match kind
    case Script => "script"
    case Stylesheet => "link"
  }

  /** The attribute holding the asset's URL. */
  function UrlAttribute(kind: Kind): string
  {
    match kind
    case Script => "src"
    case Stylesheet => "href"
  }

  /** The extension of the local copy. */
  function Extension(kind: Kind): string
  {
    match kind
    case Script => ".js"
    case Stylesheet => ".css"
  }

  /** Whether the configuration turns localization of this kind on. */
  predicate Enabled(cfg: Config, kind: Kind)
  {
    match kind
    case Script => cfg.downloadJs
    case Stylesheet => cfg.downloadCss
  }

  /** `element[attribute] = value` */
  function SetAttribute(n: Node, attribute: string, value: string): Node
    requires n.Element?
  {
    n.(attrs := n.attrs[attribute := value])
  }
}

=== FILE: fetcher.dfy ===
/** The download loop: every entry of the URL map whose destination does not
    exist yet is fetched, in the map's iteration order, and a failing fetch
    ends the loop (the plugin lets the exception propagate). */
module Fetcher {
  import opened Wrappers
  import opened OrderedMap

  /** Whether fetching and writing a URL succeeds. A `false` stands for any
      network or file error, which the plugin does not catch. */
  type Network = string -> bool

  /** What the loop leaves behind: the paths that exist afterwards, the URLs
      requested from the network in order, and the URL whose fetch failed,
      if one did. */
  datatype Fetched = Fetched(fs: set<string>, requests: seq<string>, failure: Option<string>)

  /** The keys, in order, whose destination is not among the existing paths. */
  function Missing(urls: Assoc<string, string>, fs: set<string>): seq<string>
  {
    if |urls| == 0 then []
    else (if urls[0].1 in fs then [] else [urls[0].0]) + Missing(urls[1..], fs)
  }

  /** More existing paths never add a missing key. */
  lemma {:induction false} MissingShrinks(urls: Assoc<string, string>, fs: set<string>, more: set<string>, u: string)
    requires u in Missing(urls, fs + more)
    ensures u in Missing(urls, fs)
  {
    if urls[0].1 !in fs + more && u == urls[0].0 {
    } else {
      MissingShrinks(urls[1..], fs, more, u);
    }
  }

  /** A path no entry targets does not change which keys are missing. */
  lemma {:induction false} MissingIgnores(urls: Assoc<string, string>, fs: set<string>, p: string)
    requires p !in Values(urls)
    ensures Missing(urls, fs + {p}) == Missing(urls, fs)
  {
    if |urls| > 0 {
      MissingIgnores(urls[1..], fs, p);
    }
  }

  /** No two entries share a destination. */
  ghost predicate DistinctValues(urls: Assoc<string, string>)
  {
    forall i, j :: 0 <= i < j < |urls| ==> urls[i].1 != urls[j].1
  }

  /** `for url, file_path in urls.items(): if not exists(file_path): download(url, file_path)`,
      where a download that succeeds creates its file. */
  function Fetch(urls: Assoc<string, string>, fs: set<string>, online: Network): (r: Fetched)
    ensures fs <= r.fs <= fs + Values(urls)
    ensures r.failure.None? ==> r.fs == fs + Values(urls)
    ensures forall u :: u in r.requests ==> u in Missing(urls, fs)
    ensures forall i :: 0 <= i < |r.requests| - 1 ==> online(r.requests[i])
    ensures r.failure.Some? <==> |r.requests| > 0 && !online(r.requests[|r.requests| - 1])
    ensures r.failure.Some? ==> r.failure.value == r.requests[|r.requests| - 1]
    ensures Values(urls) <= fs ==> r == Fetched(fs, [], None)
    decreases |urls|
  {
    if |urls| == 0 then Fetched(fs, [], None)
    else
      var url := urls[0].0;
      var path := urls[0].1;
      if path in fs then
        Fetch(urls[1..], fs, online)
      else if !online(url) then
        Fetched(fs, [url], Some(url))
      else
        var rest := Fetch(urls[1..], fs + {path}, online);
        assert forall u :: u in rest.requests ==> u in Missing(urls[1..], fs) by {
          forall u | u in rest.requests ensures u in Missing(urls[1..], fs) {
            MissingShrinks(urls[1..], fs, {path}, u);
          }
        }
        Fetched(rest.fs, [url] + rest.requests, rest.failure)
  }

  /** When no two entries share a destination, the loop requests exactly the
      missing keys in map order, stopping early only at a failure. */
  lemma {:induction false} FetchRequestsMissing(urls: Assoc<string, string>, fs: set<string>, online: Network)
    requires DistinctValues(urls)
    ensures Fetch(urls, fs, online).requests <= Missing(urls, fs)
    ensures Fetch(urls, fs, online).failure.None? ==> Fetch(urls, fs, online).requests == Missing(urls, fs)
    decreases |urls|
  {
    if |urls| > 0 {
      var url := urls[0].0;
      var path := urls[0].1;
      var tail := urls[1..];
      DistinctValuesTail(urls);
      var f := Fetch(urls, fs, online);
      if path in fs {
        FetchRequestsMissing(tail, fs, online);
        assert f == Fetch(tail, fs, online);
        assert Missing(urls, fs) == Missing(tail, fs);
      } else if online(url) {
        MissingIgnores(tail, fs, path);
        FetchRequestsMissing(tail, fs + {path}, online);
        var rest := Fetch(tail, fs + {path}, online);
        assert f.requests == [url] + rest.requests && f.failure == rest.failure;
        assert Missing(urls, fs) == [url] + Missing(tail, fs);
      } else {
        assert f.requests == [url];
        assert Missing(urls, fs) == [url] + Missing(tail, fs);
      }
    }
  }

  /** Without its first entry a map still has distinct destinations, none of
      them the first entry's. */
  lemma DistinctValuesTail(urls: Assoc<string, string>)
    requires DistinctValues(urls) && |urls| > 0
    ensures DistinctValues(urls[1..]) && urls[0].1 !in Values(urls[1..])
  {
    var tail := urls[1..];
    forall i, j | 0 <= i < j < |tail| ensures tail[i].1 != tail[j].1 {
      assert urls[i + 1].1 != urls[j + 1].1;
    }
    forall i | 0 <= i < |tail| ensures tail[i].1 != urls[0].1 {
      assert urls[0].1 != urls[i + 1].1;
    }
    NotInValues(tail, urls[0].1);
  }

  /** Only keys can be missing. */
  lemma {:induction false} MissingAreKeys(urls: Assoc<string, string>, fs: set<string>, u: string)
    requires u in Missing(urls, fs)
    ensures u in Keys(urls)
  {
    assert Keys(urls) == [urls[0].0] + Keys(urls[1..]);
    if u != urls[0].0 {
      MissingAreKeys(urls[1..], fs, u);
    }
  }

  /** A dict with its first entry removed is still a dict, and that entry's
      key is not among the rest. */
  lemma UniqueKeysTail(urls: Assoc<string, string>)
    requires UniqueKeys(urls) && |urls| > 0
    ensures UniqueKeys(urls[1..]) && urls[0].0 !in Keys(urls[1..])
  {
    var tail := urls[1..];
    forall i, j | 0 <= i < j < |tail| ensures Keys(tail)[i] != Keys(tail)[j] {
      assert Keys(urls)[i + 1] != Keys(urls)[j + 1];
    }
    forall i | 0 <= i < |tail| ensures Keys(tail)[i] != urls[0].0 {
      assert Keys(urls)[0] != Keys(urls)[i + 1];
    }
  }

  /** In a dict no key is missing twice: at most one request per URL. */
  lemma {:induction false} MissingDistinct(urls: Assoc<string, string>, fs: set<string>)
    requires UniqueKeys(urls)
    ensures Distinct(Missing(urls, fs))
    decreases |urls|
  {
    if |urls| > 0 {
      var tail := urls[1..];
      UniqueKeysTail(urls);
      MissingDistinct(tail, fs);
      var m := Missing(urls, fs);
      var rest := Missing(tail, fs);
      if urls[0].1 !in fs {
        assert m == [urls[0].0] + rest;
        forall i, j | 0 <= i < j < |m| ensures m[i] != m[j] {
          assert m[j] == rest[j - 1];
          if i == 0 {
            MissingAreKeys(tail, fs, rest[j - 1]);
          } else {
            assert m[i] == rest[i - 1];
          }
        }
      } else {
        assert m == rest;
      }
    }
  }

  /** Over a dict the loop never requests a URL twice, whatever the
      destinations are: each key is visited once. */
  lemma {:induction false} FetchRequestsDistinct(urls: Assoc<string, string>, fs: set<string>, online: Network)
    requires UniqueKeys(urls)
    ensures Distinct(Fetch(urls, fs, online).requests)
    decreases |urls|
  {
    if |urls| > 0 {
      var url := urls[0].0;
      var path := urls[0].1;
      var tail := urls[1..];
      UniqueKeysTail(urls);
      if path in fs {
        FetchRequestsDistinct(tail, fs, online);
      } else if online(url) {
        FetchRequestsDistinct(tail, fs + {path}, online);
        var rest := Fetch(tail, fs + {path}, online).requests;
        var r := Fetch(urls, fs, online).requests;
        assert r == [url] + rest;
        forall i, j | 0 <= i < j < |r| ensures r[i] != r[j] {
          assert r[j] == rest[j - 1];
          if i == 0 {
            MissingAreKeys(tail, fs + {path}, rest[j - 1]);
          } else {
            assert r[i] == rest[i - 1];
          }
        }
      }
    }
  }

  /** In a dict a key is missing exactly when its destination does not exist. */
  lemma {:induction false} MissingMembers(urls: Assoc<string, string>, fs: set<string>, u: string)
    requires UniqueKeys(urls)
    ensures u in Missing(urls, fs) <==> Lookup(urls, u).Some? && Lookup(urls, u).value !in fs
    decreases |urls|
  {
    if |urls| > 0 {
      var tail := urls[1..];
      UniqueKeysTail(urls);
      MissingMembers(tail, fs, u);
      if u == urls[0].0 {
        if u in Missing(tail, fs) {
          MissingAreKeys(tail, fs, u);
        }
      }
    }
  }

  /** Once the loop has finished, running it again over the same map requests
      nothing and cannot fail, whatever the network does. */
  lemma FetchIdempotent(urls: Assoc<string, string>, fs: set<string>, online: Network, later: Network)
    requires Fetch(urls, fs, online).failure.None?
    ensures var again := Fetch(urls, Fetch(urls, fs, online).fs, later);
            again.requests == [] && again.failure.None? && again.fs == Fetch(urls, fs, online).fs
  {
  }
}

=== FILE: localizer.dfy ===
/** The scan-and-rewrite half of the asset localizer: which elements refer to
    a remote asset, what they are rewritten to, and the insertion-ordered
    URL → destination map the two scan loops build for the download step. */
module Localizer {
  import opened Wrappers
  import opened Strings
  import opened Paths
  import opened OrderedMap
  import opened Document

  /** The lower-case hex digest of a URL's UTF-8 encoding. The plugin uses
      SHA-256; here it is any function, which makes it deterministic and
      nothing more. Lemmas that need more say so with the predicates below. */
  type Hasher = string -> string

  const HexDigits: string := "0123456789abcdef"

  /** The shape of a SHA-256 hex digest. */
  ghost predicate IsHexDigest(d: string)
  {
    |d| == 64 && forall i :: 0 <= i < |d| ==> d[i] in HexDigits
  }

  ghost predicate IsSha256Hex(hash: Hasher)
  {
    forall u :: IsHexDigest(hash(u))
  }

  /** The collision-freedom SHA-256 is trusted for, over the URLs at hand: no
      two of them share a digest. (A function into 64-character digests
      cannot be collision-free over all strings.) */
  ghost predicate CollisionFreeOn(hash: Hasher, urls: seq<string>)
  {
    forall u, v :: u in urls && v in urls && hash(u) == hash(v) ==> u == v
  }

  /** The table the link loop maps the first `rel` token through. */
  const RelToExt: map<string, string> := map["stylesheet" := ".css"]

  /** A remote reference found by a scan loop: its URL and the extension its
      local copy gets. */
  datatype Asset = Asset(url: string, ext: string)

  /** Which elements the plugin localizes, stated flatly: a `<script>` with an
      absolute `src`, or a `<link>` with an absolute `href` whose first `rel`
      token is exactly `stylesheet`. */
  predicate Localizable(kind: Kind, n: Node)
  {
    && n.Element?
    && n.tag == TagName(kind)
    && UrlAttribute(kind) in n.attrs
    && !IsRelativeUrl(n.attrs[UrlAttribute(kind)])
    && (kind == Stylesheet ==> |n.rel| > 0 && n.rel[0] == "stylesheet")
  }

  /** The remote URL of a localizable element. */
  function AssetUrl(kind: Kind, n: Node): string
    requires Localizable(kind, n)
  {
    n.attrs[UrlAttribute(kind)]
  }

  /** The test each scan loop applies to an element, in the plugin's own
      order: attribute lookups that may miss, the truthiness tests, the
      absolute-URL test and, for links, the `rel` table lookup. */
  function Candidate(kind: Kind, n: Node): (r: Option<Asset>)
    ensures r.Some? <==> Localizable(kind, n)
    ensures r.Some? ==> r.value == Asset(AssetUrl(kind, n), Extension(kind))
  {
    if !n.Element? || n.tag != TagName(kind) then None
    else
      match kind
      case Script =>
        var src := Get(n.attrs, "src");
        if src.Some? && src.value != "" && !IsRelativeUrl(src.value) then
          Some(Asset(src.value, ".js"))
        else None
      case Stylesheet =>
        var href := Get(n.attrs, "href");
        if |n.rel| == 0 || href.None? || href.value == "" || IsRelativeUrl(href.value) then None
        else
          var ext := Get(RelToExt, n.rel[0]);
          if ext.None? || ext.value == "" then None
          else Some(Asset(href.value, ext.value))
  }

  /** The link loop's tests at their boundaries: only the first `rel` token
      counts and it is compared case-sensitively; an empty `rel` or a
      missing or relative `href` disqualifies. */
  lemma LinkCandidateBoundary()
    ensures var abs := map["href" := "https://cdn.example.com/a.css"];
            && Candidate(Stylesheet, Element("link", abs, ["stylesheet", "preload"]))
               == Some(Asset("https://cdn.example.com/a.css", ".css"))
            && Candidate(Stylesheet, Element("link", abs, ["preload", "stylesheet"])).None?
            && Candidate(Stylesheet, Element("link", abs, ["StyleSheet"])).None?
            && Candidate(Stylesheet, Element("link", abs, [])).None?
            && Candidate(Stylesheet, Element("link", map[], ["stylesheet"])).None?
            && Candidate(Stylesheet, Element("link", map["href" := "//cdn.example.com/a.css"], ["stylesheet"])).None?
  {
    assert "https://cdn.example.com/a.css"[..8] == "https://";
    assert "preload" != "stylesheet" by { assert "preload"[0] != "stylesheet"[0]; }
    assert "StyleSheet" != "stylesheet" by { assert "StyleSheet"[0] != "stylesheet"[0]; }
    assert "//cdn.example.com/a.css"[0] != "http://"[0];
  }

  /** The script loop's tests at their boundaries: a missing, empty or
      relative `src` disqualifies, and so does any other tag. */
  lemma ScriptCandidateBoundary()
    ensures && Candidate(Script, Element("script", map["src" := "https://cdn.example.com/a.js"], []))
               == Some(Asset("https://cdn.example.com/a.js", ".js"))
            && Candidate(Script, Element("script", map["src" := ""], [])).None?
            && Candidate(Script, Element("script", map["src" := "/local/app.js"], [])).None?
            && Candidate(Script, Element("script", map["href" := "https://cdn.example.com/a.js"], [])).None?
            && Candidate(Script, Element("link", map["src" := "https://cdn.example.com/a.js"], [])).None?
  {
    assert "https://cdn.example.com/a.js"[..8] == "https://";
    assert "/local/app.js"[0] != "http://"[0];
    assert "link" != "script" by { assert "link"[0] != "script"[0]; }
  }

  /** The name of the local copy: the URL's digest plus the kind's extension. */
  function LocalName(hash: Hasher, kind: Kind, url: string): (r: string)
    ensures EndsWith(r, Extension(kind))
    ensures IsSha256Hex(hash) ==> |r| == 64 + |Extension(kind)| && '/' !in r
  {
    hash(url) + Extension(kind)
  }

  /** With a hex digest, the first 64 characters of the name are hex digits. */
  lemma LocalNameDigits(hash: Hasher, kind: Kind, url: string)
    requires IsSha256Hex(hash)
    ensures IsHexDigest(LocalName(hash, kind, url)[..64])
  {
    assert LocalName(hash, kind, url)[..64] == hash(url);
  }

  /** `os.path.join(site_dir, directory, name)`: unless `directory` is
      absolute, the path begins with the string `site_dir`. (A `..` segment
      in `directory` can still lead outside that directory on disk.) */
  function Destination(cfg: Config, name: string): (r: string)
    ensures !StartsWith(name, "/") && !StartsWith(cfg.directory, "/") ==> cfg.siteDir <= r
  {
    JoinUnder(cfg.siteDir, cfg.directory, name);
    PathJoin(PathJoin(cfg.siteDir, cfg.directory), name)
  }

  /** A file name that does not start with `/` is its destination, or ends
      it after a `/`. */
  lemma DestinationLastComponent(cfg: Config, name: string)
    requires !StartsWith(name, "/")
    ensures Destination(cfg, name) == name || exists dir :: Destination(cfg, name) == dir + "/" + name
  {
    JoinLastComponent(PathJoin(cfg.siteDir, cfg.directory), name);
  }

  /** Where the local copy of `url`, localized as `kind`, is stored: unless
      the configured directory is absolute, a path that begins with the
      string `site_dir`. */
  function AssetDestination(cfg: Config, hash: Hasher, kind: Kind, url: string): (r: string)
    ensures IsSha256Hex(hash) && !StartsWith(cfg.directory, "/") ==> cfg.siteDir <= r
  {
    assert IsSha256Hex(hash) ==> LocalName(hash, kind, url)[..1] == [LocalName(hash, kind, url)[0]];
    Destination(cfg, LocalName(hash, kind, url))
  }

  /** With a hex digest, the copy is a file named by the digest and the
      kind's extension, as the last component of its destination. */
  lemma AssetDestinationLastComponent(cfg: Config, hash: Hasher, kind: Kind, url: string)
    requires IsSha256Hex(hash)
    ensures var name := LocalName(hash, kind, url);
            AssetDestination(cfg, hash, kind, url) == name
            || exists dir :: AssetDestination(cfg, hash, kind, url) == dir + "/" + name
  {
    var name := LocalName(hash, kind, url);
    assert name[..1] == [name[0]] && name[0] != '/';
    DestinationLastComponent(cfg, name);
  }

  /** An element as it leaves a scan loop for `kind`: a localizable element
      has its URL attribute replaced by the embed path of its local copy,
      every other node is left as it was. */
  function Localized(cfg: Config, hash: Hasher, page: Option<string>, kind: Kind, n: Node): (r: Node)
    ensures r.Element? <==> n.Element?
    ensures n.Element? ==> r.tag == n.tag && r.rel == n.rel && r.attrs.Keys == n.attrs.Keys
    ensures n.Element? ==> forall a :: a in n.attrs && a != UrlAttribute(kind) ==> r.attrs[a] == n.attrs[a]
    ensures !Localizable(kind, n) ==> r == n
    ensures Localizable(kind, n) ==>
              r.attrs[UrlAttribute(kind)] == FindRelPath(cfg.directory, LocalName(hash, kind, AssetUrl(kind, n)), page)
  {
    if Localizable(kind, n) then
      SetAttribute(n, UrlAttribute(kind), FindRelPath(cfg.directory, LocalName(hash, kind, AssetUrl(kind, n)), page))
    else n
  }

  /** The URLs of the elements localizable as `kind`, in document order,
      repetitions included. */
  function AssetUrls(kind: Kind, nodes: seq<Node>): seq<string>
  {
    if |nodes| == 0 then []
    else
      var last := nodes[|nodes| - 1];
      AssetUrls(kind, nodes[..|nodes| - 1]) + if Localizable(kind, last) then [AssetUrl(kind, last)] else []
  }

  /** The URLs a page asks to have localized as `kind` under `cfg`. */
  function Requested(cfg: Config, kind: Kind, doc: seq<Node>): seq<string>
  {
    if Enabled(cfg, kind) then AssetUrls(kind, doc) else []
  }

  /** The page as it leaves both scan loops and the URL map they built. */
  datatype Scanned = Scanned(doc: seq<Node>, urls: Assoc<string, string>)

  /** One scan loop, `for el in soup.find_all(tag)`, over the nodes from
      first to last: each candidate is rewritten in place and its URL is
      assigned its destination in the map. */
  function Pass(cfg: Config, hash: Hasher, page: Option<string>, kind: Kind, nodes: seq<Node>, urls: Assoc<string, string>): (r: Scanned)
    ensures |r.doc| == |nodes|
    ensures forall i :: 0 <= i < |nodes| ==> r.doc[i] == Localized(cfg, hash, page, kind, nodes[i])
    decreases |nodes|
  {
    if |nodes| == 0 then Scanned([], urls)
    else
      var prev := Pass(cfg, hash, page, kind, nodes[..|nodes| - 1], urls);
      var n := nodes[|nodes| - 1];
      assert forall i :: 0 <= i < |nodes| - 1 ==> prev.doc[i] == Localized(cfg, hash, page, kind, nodes[i]);
      match Candidate(kind, n)
      case None =>
        assert n == Localized(cfg, hash, page, kind, n);
        Scanned(prev.doc + [n], prev.urls)
      case Some(a) =>
        var name := hash(a.url) + a.ext;
        assert name == LocalName(hash, kind, AssetUrl(kind, n));
        var el := SetAttribute(n, UrlAttribute(kind), FindRelPath(cfg.directory, name, page));
        assert el == Localized(cfg, hash, page, kind, n);
        Scanned(prev.doc + [el], Put(prev.urls, a.url, Destination(cfg, name)))
  }

  /** The step of a scan loop on one more node, in terms of the map: an
      unmatched node leaves the map alone, a matched one assigns its URL its
      destination for this kind. */
  lemma PassStep(cfg: Config, hash: Hasher, page: Option<string>, kind: Kind, nodes: seq<Node>, urls: Assoc<string, string>)
    requires |nodes| > 0
    ensures var init := nodes[..|nodes| - 1];
            var n := nodes[|nodes| - 1];
            var prev := Pass(cfg, hash, page, kind, init, urls).urls;
            Pass(cfg, hash, page, kind, nodes, urls).urls
            == if Localizable(kind, n) then Put(prev, AssetUrl(kind, n), AssetDestination(cfg, hash, kind, AssetUrl(kind, n)))
               else prev
    ensures var init := nodes[..|nodes| - 1];
            var n := nodes[|nodes| - 1];
            AssetUrls(kind, nodes) == AssetUrls(kind, init) + if Localizable(kind, n) then [AssetUrl(kind, n)] else []
  {
  }

  /** The keys after a scan loop: a dict stays a dict, and its keys are the
      old keys followed by the loop's new URLs in order of first occurrence. */
  lemma {:induction false} PassKeys(cfg: Config, hash: Hasher, page: Option<string>, kind: Kind, nodes: seq<Node>, urls: Assoc<string, string>)
    requires UniqueKeys(urls)
    ensures var r := Pass(cfg, hash, page, kind, nodes, urls);
            UniqueKeys(r.urls) && Keys(r.urls) == FirstOccurrences(Keys(urls) + AssetUrls(kind, nodes))
    decreases |nodes|
  {
    if |nodes| == 0 {
      assert Keys(urls) + AssetUrls(kind, nodes) == Keys(urls);
      FirstOccurrencesOfDistinct(Keys(urls));
    } else {
      var init := nodes[..|nodes| - 1];
      var n := nodes[|nodes| - 1];
      PassKeys(cfg, hash, page, kind, init, urls);
      PassStep(cfg, hash, page, kind, nodes, urls);
      var prev := Pass(cfg, hash, page, kind, init, urls).urls;
      var x := Keys(urls) + AssetUrls(kind, init);
      assert Keys(prev) == FirstOccurrences(x);
      if Localizable(kind, n) {
        var u := AssetUrl(kind, n);
        var d := AssetDestination(cfg, hash, kind, u);
        assert Pass(cfg, hash, page, kind, nodes, urls).urls == Put(prev, u, d);
        assert Keys(urls) + AssetUrls(kind, nodes) == x + [u];
        FirstOccurrencesSnoc(x, u);
        assert u in Keys(prev) <==> u in x;
      } else {
        assert Keys(urls) + AssetUrls(kind, nodes) == x;
      }
    }
  }

  /** The values after a scan loop: a URL the loop met maps to its
      destination for this kind (the last assignment wins), every other key
      keeps what it had. */
  lemma {:induction false} PassLookup(cfg: Config, hash: Hasher, page: Option<string>, kind: Kind, nodes: seq<Node>, urls: Assoc<string, string>, u: string)
    ensures Lookup(Pass(cfg, hash, page, kind, nodes, urls).urls, u)
            == if u in AssetUrls(kind, nodes) then Some(AssetDestination(cfg, hash, kind, u))
               else Lookup(urls, u)
    decreases |nodes|
  {
    if |nodes| > 0 {
      var init := nodes[..|nodes| - 1];
      PassLookup(cfg, hash, page, kind, init, urls, u);
      PassStep(cfg, hash, page, kind, nodes, urls);
    }
  }

  /** A page element as the whole scan leaves it, stated from the
      configuration: the script loop runs first and the link loop second, and
      no element is both a `<script>` and a `<link>`. */
  function Rewritten(cfg: Config, hash: Hasher, page: Option<string>, n: Node): (r: Node)
    ensures r.Element? <==> n.Element?
    ensures n.Element? ==> r.tag == n.tag && r.rel == n.rel && r.attrs.Keys == n.attrs.Keys
    ensures n.Element? ==> forall a :: a in n.attrs && a != "src" && a != "href" ==> r.attrs[a] == n.attrs[a]
    ensures !(Enabled(cfg, Script) && Localizable(Script, n)) && !(Enabled(cfg, Stylesheet) && Localizable(Stylesheet, n)) ==> r == n
  {
    if cfg.downloadJs && Localizable(Script, n) then Localized(cfg, hash, page, Script, n)
    else if cfg.downloadCss && Localizable(Stylesheet, n) then Localized(cfg, hash, page, Stylesheet, n)
    else n
  }

  /** The destination the finished map holds for `u`, stated from the page: a
      URL some localized `<link>` uses gets its `.css` copy (the link loop
      assigns last), one only scripts use gets its `.js` copy. */
  function ExpectedDestination(cfg: Config, hash: Hasher, doc: seq<Node>, u: string): Option<string>
  {
    if u in Requested(cfg, Stylesheet, doc) then Some(AssetDestination(cfg, hash, Stylesheet, u))
    else if u in Requested(cfg, Script, doc) then Some(AssetDestination(cfg, hash, Script, u))
    else None
  }

  /** Two node sequences whose elements agree on being localizable as `kind`,
      and on the URL when they are, yield the same asset URLs. */
  lemma {:induction false} AssetUrlsAgree(kind: Kind, a: seq<Node>, b: seq<Node>)
    requires |a| == |b|
    requires forall i :: 0 <= i < |a| ==> (Localizable(kind, a[i]) <==> Localizable(kind, b[i]))
    requires forall i :: 0 <= i < |a| && Localizable(kind, a[i]) ==> AssetUrl(kind, a[i]) == AssetUrl(kind, b[i])
    ensures AssetUrls(kind, a) == AssetUrls(kind, b)
  {
    if |a| > 0 {
      AssetUrlsAgree(kind, a[..|a| - 1], b[..|b| - 1]);
    }
  }

  /** The body of the plugin's page processing up to the download step: the
      script loop when `download_js` is set, then the link loop when
      `download_css` is set, both over the same page and the same map. */
  function Scan(cfg: Config, hash: Hasher, page: Option<string>, doc: seq<Node>): (r: Scanned)
    ensures |r.doc| == |doc|
    ensures forall i :: 0 <= i < |doc| ==> r.doc[i] == Rewritten(cfg, hash, page, doc[i])
    ensures forall i :: 0 <= i < |doc| && !(doc[i].Element? && doc[i].tag in {"script", "link"}) ==> r.doc[i] == doc[i]
    ensures forall i :: 0 <= i < |doc| && doc[i].Element? && !Enabled(cfg, Script) && doc[i].tag == "script" ==> r.doc[i] == doc[i]
    ensures forall i :: 0 <= i < |doc| && doc[i].Element? && !Enabled(cfg, Stylesheet) && doc[i].tag == "link" ==> r.doc[i] == doc[i]
  {
    var js := ScriptLoop(cfg, hash, page, doc);
    if cfg.downloadCss then Pass(cfg, hash, page, Stylesheet, js.doc, js.urls) else js
  }

  /** The first loop of the scan, run only when `download_js` is set. */
  function ScriptLoop(cfg: Config, hash: Hasher, page: Option<string>, doc: seq<Node>): Scanned
  {
    if cfg.downloadJs then Pass(cfg, hash, page, Script, doc, []) else Scanned(doc, [])
  }

  /** The script loop leaves every `<link>` as it was, so the link loop sees
      the same stylesheet URLs it would have seen on the original page. */
  lemma ScriptLoopKeepsLinks(cfg: Config, hash: Hasher, page: Option<string>, doc: seq<Node>)
    ensures AssetUrls(Stylesheet, ScriptLoop(cfg, hash, page, doc).doc) == AssetUrls(Stylesheet, doc)
  {
    AssetUrlsAgree(Stylesheet, ScriptLoop(cfg, hash, page, doc).doc, doc);
  }

  /** The finished URL map is a dict whose keys are the localized URLs in
      order of first occurrence, every script URL before the stylesheet URLs
      first met in the link loop: one key per distinct URL. */
  lemma ScanKeys(cfg: Config, hash: Hasher, page: Option<string>, doc: seq<Node>)
    ensures var m := Scan(cfg, hash, page, doc).urls;
            UniqueKeys(m) && Keys(m) == FirstOccurrences(Requested(cfg, Script, doc) + Requested(cfg, Stylesheet, doc))
  {
    var empty: Assoc<string, string> := [];
    var js := ScriptLoop(cfg, hash, page, doc);
    if cfg.downloadJs {
      PassKeys(cfg, hash, page, Script, doc, empty);
    }
    assert Keys(empty) + Requested(cfg, Script, doc) == Requested(cfg, Script, doc);
    assert UniqueKeys(js.urls) && Keys(js.urls) == FirstOccurrences(Requested(cfg, Script, doc));
    if cfg.downloadCss {
      PassKeys(cfg, hash, page, Stylesheet, js.doc, js.urls);
      ScriptLoopKeepsLinks(cfg, hash, page, doc);
      FirstOccurrencesAbsorb(Requested(cfg, Script, doc), Requested(cfg, Stylesheet, doc));
    } else {
      assert Requested(cfg, Script, doc) + Requested(cfg, Stylesheet, doc) == Requested(cfg, Script, doc);
    }
  }

  /** What the finished map holds for each URL: the destination its last
      assignment gave it, so a URL used both as a script and as a stylesheet
      ends at its `.css` copy; a URL not localized is absent. */
  lemma ScanLookup(cfg: Config, hash: Hasher, page: Option<string>, doc: seq<Node>, u: string)
    ensures Lookup(Scan(cfg, hash, page, doc).urls, u) == ExpectedDestination(cfg, hash, doc, u)
  {
    var empty: Assoc<string, string> := [];
    var js := ScriptLoop(cfg, hash, page, doc);
    if cfg.downloadJs {
      PassLookup(cfg, hash, page, Script, doc, empty, u);
    }
    if cfg.downloadCss {
      PassLookup(cfg, hash, page, Stylesheet, js.doc, js.urls, u);
      ScriptLoopKeepsLinks(cfg, hash, page, doc);
    }
  }
}

=== FILE: ordered_map.dfy ===
/** Python's insertion-ordered `dict` as an association list: iteration
    follows first insertion, and assigning to a key already present replaces
    its value without moving it. */
module OrderedMap {
  import opened Wrappers

  type Assoc<K, V> = seq<(K, V)>

  /** The keys in iteration order. */
  function Keys<K, V>(m: Assoc<K, V>): seq<K>
  {
    seq(|m|, i requires 0 <= i < |m| => m[i].0)
  }

  /** The set of values, `set(d.values())`. */
  function Values<K, V>(m: Assoc<K, V>): set<V>
  {
    if |m| == 0 then {} else {m[0].1} + Values(m[1..])
  }

  /** Every value sits at some position of the list. */
  lemma {:induction false} ValueIndex<K, V>(m: Assoc<K, V>, v: V) returns (i: nat)
    requires v in Values(m)
    ensures i < |m| && m[i].1 == v
  {
    if m[0].1 == v {
      i := 0;
    } else {
      var j := ValueIndex(m[1..], v);
      i := j + 1;
    }
  }

  /** A value at no position is not a value. */
  lemma {:induction false} NotInValues<K, V>(m: Assoc<K, V>, v: V)
    requires forall i :: 0 <= i < |m| ==> m[i].1 != v
    ensures v !in Values(m)
  {
    if |m| > 0 {
      assert m[0].1 != v;
      assert forall i :: 0 <= i < |m[1..]| ==> m[1..][i].1 == m[i + 1].1;
      NotInValues(m[1..], v);
    }
  }

  ghost predicate Distinct<T>(s: seq<T>)
  {
    forall i, j :: 0 <= i < j < |s| ==> s[i] != s[j]
  }

  /** What every dict satisfies: no key occurs twice. */
  ghost predicate UniqueKeys<K, V>(m: Assoc<K, V>)
  {
    Distinct(Keys(m))
  }

  /** `d.get(k)` */
  function Lookup<K(==), V>(m: Assoc<K, V>, k: K): Option<V>
  {
    if |m| == 0 then None
    else if m[0].0 == k then Some(m[0].1)
    else Lookup(m[1..], k)
  }

  /** A dict with a single key is that key and what a lookup of it finds. */
  lemma SingleKey<K, V>(m: Assoc<K, V>, k: K)
    requires Keys(m) == [k]
    ensures Lookup(m, k).Some? && m == [(k, Lookup(m, k).value)]
  {
    assert |m| == |Keys(m)| == 1;
    assert m[0].0 == Keys(m)[0] == k;
  }

  /** In a dict every entry is what a lookup of its key finds. */
  lemma {:induction false} LookupEntry<K, V>(m: Assoc<K, V>, i: nat)
    requires UniqueKeys(m)
    requires i < |m|
    ensures Lookup(m, m[i].0) == Some(m[i].1)
  {
    if i > 0 {
      assert Keys(m)[0] != Keys(m)[i];
      assert UniqueKeys(m[1..]) by {
        forall a, b | 0 <= a < b < |m[1..]| ensures Keys(m[1..])[a] != Keys(m[1..])[b] {
          assert Keys(m)[a + 1] != Keys(m)[b + 1];
        }
      }
      LookupEntry(m[1..], i - 1);
    }
  }

  /** Whatever a lookup finds is one of the values. */
  lemma {:induction false} LookupInValues<K, V>(m: Assoc<K, V>, k: K)
    requires Lookup(m, k).Some?
    ensures Lookup(m, k).value in Values(m)
  {
    if m[0].0 != k {
      LookupInValues(m[1..], k);
    }
  }

  /** `d[k] = v`: a new key goes to the end of the iteration order; a key
      already present keeps its place and takes the new value. */
  function Put<K(==,!new), V>(m: Assoc<K, V>, k: K, v: V): (r: Assoc<K, V>)
    ensures Lookup(r, k) == Some(v)
    ensures forall k' :: k' != k ==> Lookup(r, k') == Lookup(m, k')
    ensures k in Keys(m) ==> Keys(r) == Keys(m)
    ensures k !in Keys(m) ==> Keys(r) == Keys(m) + [k]
    ensures UniqueKeys(m) ==> UniqueKeys(r)
  {
    if |m| == 0 then [(k, v)]
    else if m[0].0 == k then
      var r := [(k, v)] + m[1..];
      assert Keys(m)[0] == k;
      assert Keys(r) == Keys(m);
      r
    else
      var rest := Put(m[1..], k, v);
      var r := [m[0]] + rest;
      assert Keys(r) == [m[0].0] + Keys(rest);
      assert Keys(m) == [m[0].0] + Keys(m[1..]);
      assert UniqueKeys(m) ==> UniqueKeys(m[1..]) by {
        if UniqueKeys(m) {
          forall a, b | 0 <= a < b < |m[1..]| ensures Keys(m[1..])[a] != Keys(m[1..])[b] {
            assert Keys(m)[a + 1] != Keys(m)[b + 1];
          }
        }
      }
      assert UniqueKeys(m) ==> m[0].0 !in Keys(rest) by {
        if UniqueKeys(m) {
          assert m[0].0 !in Keys(m[1..]) by {
            forall j | 0 <= j < |Keys(m[1..])| ensures Keys(m[1..])[j] != m[0].0 {
              assert Keys(m)[0] != Keys(m)[j + 1];
            }
          }
        }
      }
      r
  }

  /** The elements of `s` in the order of their first occurrence, each once. */
  function FirstOccurrences<T(==,!new)>(s: seq<T>): (r: seq<T>)
    ensures Distinct(r)
    ensures forall x :: x in r <==> x in s
  {
    if |s| == 0 then []
    else
      var init := s[..|s| - 1];
      var last := s[|s| - 1];
      assert forall x :: x in s <==> x in init || x == last;
      if last in init then FirstOccurrences(init) else FirstOccurrences(init) + [last]
  }

  /** Appending one element extends the first occurrences by it exactly when
      it is new. */
  lemma FirstOccurrencesSnoc<T(!new)>(s: seq<T>, x: T)
    ensures FirstOccurrences(s + [x]) == if x in s then FirstOccurrences(s) else FirstOccurrences(s) + [x]
  {
    assert (s + [x])[..|s|] == s;
  }

  /** A sequence without repetitions is its own first occurrences. */
  lemma {:induction false} FirstOccurrencesOfDistinct<T(!new)>(s: seq<T>)
    ensures Distinct(s) ==> FirstOccurrences(s) == s
  {
    if |s| > 0 && Distinct(s) {
      var init := s[..|s| - 1];
      assert Distinct(init);
      FirstOccurrencesOfDistinct(init);
      assert s[|s| - 1] !in init;
      assert s == init + [s[|s| - 1]];
    }
  }

  /** Removing repetitions early changes nothing. */
  lemma {:induction false} FirstOccurrencesAbsorb<T(!new)>(a: seq<T>, b: seq<T>)
    ensures FirstOccurrences(FirstOccurrences(a) + b) == FirstOccurrences(a + b)
    decreases |b|
  {
    if |b| == 0 {
      assert FirstOccurrences(a) + b == FirstOccurrences(a);
      assert a + b == a;
      FirstOccurrencesOfDistinct(FirstOccurrences(a));
    } else {
      var init := b[..|b| - 1];
      var x := b[|b| - 1];
      var p := FirstOccurrences(a) + init;
      var q := a + init;
      FirstOccurrencesAbsorb(a, init);
      assert FirstOccurrences(a) + b == p + [x];
      assert a + b == q + [x];
      assert x in p <==> x in q;
      FirstOccurrencesSnoc(p, x);
      FirstOccurrencesSnoc(q, x);
    }
  }
}

=== FILE: paths.dfy ===
/** URL classification and the paths the plugin builds: the test that decides
    whether a reference is remote, POSIX path joining for the file on disk,
    and the path written into a page for a local copy. */
module Paths {
  import opened Wrappers
  import opened Strings

  /** A URL counts as relative unless it starts with one of these two exact,
      case-sensitive prefixes; scheme-relative `//host/x`, `ftp://...`,
      `data:...` and `HTTP://...` are all "relative". */
  predicate IsRelativeUrl(url: string): (r: bool)
    ensures !r <==> |url| >= 7 && url[..4] == "http"
                    && (url[4..7] == "://" || (|url| >= 8 && url[4..8] == "s://"))
  {
    !(StartsWith(url, "http://") || StartsWith(url, "https://"))
  }

  /** The boundary of the absolute-URL test on the inputs that matter. */
  lemma RelativeUrlBoundary()
    ensures !IsRelativeUrl("http://") && !IsRelativeUrl("https://")
    ensures !IsRelativeUrl("https://cdn.example.com/a.js")
    ensures IsRelativeUrl("//cdn.example.com/a.js")
    ensures IsRelativeUrl("ftp://example.com/a.js")
    ensures IsRelativeUrl("data:text/css,a{}")
    ensures IsRelativeUrl("HTTP://example.com/a.js")
    ensures IsRelativeUrl("http:/example.com") && IsRelativeUrl("https:")
    ensures IsRelativeUrl("/local/app.js") && IsRelativeUrl("")
  {
    assert "http://"[..7] == "http://";
    assert "https://"[4] != "http://"[4];
    assert "https://"[..8] == "https://";
    assert "https://cdn.example.com/a.js"[..8] == "https://";
    assert "//cdn.example.com/a.js"[..7] != "http://";
    assert "//cdn.example.com/a.js"[..8] != "https://";
    assert "ftp://example.com/a.js"[0] != "http://"[0];
    assert "ftp://example.com/a.js"[..8] != "https://";
    assert "data:text/css,a{}"[..7] != "http://";
    assert "data:text/css,a{}"[..8] != "https://";
    assert "HTTP://example.com/a.js"[0] != "http://"[0];
    assert "HTTP://example.com/a.js"[..8] != "https://";
    assert "http:/example.com"[6] != "http://"[6];
    assert "http:/example.com"[..8] != "https://";
    assert "/local/app.js"[..7] != "http://";
    assert "/local/app.js"[..8] != "https://";
  }

  /** Every absolute URL is non-empty and begins with "http", so the plugin's
      separate emptiness test never decides anything the absolute test does not. */
  lemma AbsoluteUrlShape(url: string)
    requires !IsRelativeUrl(url)
    ensures |url| >= 7 && url != "" && url[..4] == "http"
  {
    if StartsWith(url, "http://") {
      assert url[..4] == url[..7][..4];
    } else {
      assert url[..4] == url[..8][..4];
    }
  }

  /** `posixpath.join(a, b)`: an absolute `b` replaces `a`; otherwise a `/` is
      inserted unless `a` is empty or already ends in one. So a relative `b`
      lands inside `a`; `JoinLastComponent` adds that it ends the result,
      after a `/` or alone. */
  function PathJoin(a: string, b: string): (r: string)
    ensures StartsWith(b, "/") ==> r == b
    ensures !StartsWith(b, "/") ==> a <= r && |r| <= |a| + 1 + |b|
  {
    if StartsWith(b, "/") then b
    else if a == "" || EndsWith(a, "/") then a + b
    else a + "/" + b
  }

  /** A `b` that does not start with `/` is the joined path, or ends it
      after a `/`. */
  lemma JoinLastComponent(a: string, b: string)
    requires !StartsWith(b, "/")
    ensures PathJoin(a, b) == b || exists dir :: PathJoin(a, b) == dir + "/" + b
  {
    if a == "" {
    } else if EndsWith(a, "/") {
      assert a + b == a[..|a| - 1] + "/" + b;
    } else {
      assert PathJoin(a, b) == a + "/" + b;
    }
  }

  /** `os.path.join(a, b, c)` with relative `b` and `c` stays under `a`. */
  lemma {:induction false} JoinUnder(a: string, b: string, c: string)
    ensures !StartsWith(b, "/") && !StartsWith(c, "/") ==> a <= PathJoin(PathJoin(a, b), c)
  {
    if !StartsWith(b, "/") && !StartsWith(c, "/") {
      var ab := PathJoin(a, b);
      var abc := PathJoin(ab, c);
      assert abc[..|a|] == ab[..|a|];
    }
  }

  /** For the usual shapes of its arguments, joining is plain concatenation
      around one separator. */
  lemma PathJoinPlain(a: string, b: string)
    requires a != "" && !EndsWith(a, "/")
    requires !StartsWith(b, "/")
    ensures PathJoin(a, b) == a + "/" + b
  {
    if b != "" {
      assert b[..1] == [b[0]];
    }
  }

  /** An absolute second component discards the first: `site_dir` is lost
      when the configured directory begins with `/`. */
  lemma PathJoinAbsolute(a: string, b: string)
    requires StartsWith(b, "/")
    ensures PathJoin(a, b) == b
  {
    assert b[..1] == "/";
  }

  /** With a fixed first component, joining is injective in a second
      component that is not absolute. */
  lemma PathJoinInjective(a: string, b1: string, b2: string)
    requires !StartsWith(b1, "/") && !StartsWith(b2, "/")
    requires PathJoin(a, b1) == PathJoin(a, b2)
    ensures b1 == b2
  {
    if b1 != "" { assert b1[..1] != "/"; }
    if b2 != "" { assert b2[..1] != "/"; }
    var p := PathJoin(a, b1);
    if a == "" || EndsWith(a, "/") {
      assert p == a + b1 && p == a + b2;
      assert b1 == p[|a|..] == b2;
    } else {
      assert p == a + "/" + b1 && p == a + "/" + b2;
      assert b1 == p[|a| + 1..] == b2;
    }
  }

  /** The path written into the output for the asset file `fileName` stored in
      `directory`: root-absolute without a page (templates), otherwise one
      `../` per `/` in the page's URL, so that it climbs back to the site root. */
  function FindRelPath(directory: string, fileName: string, page: Option<string>): (r: string)
    ensures page.None? ==> r == "/" + directory + "/" + fileName
    ensures page.Some? ==> r == Repeat("../", Count(page.value, '/')) + directory + "/" + fileName
    ensures page.Some? && Count(page.value, '/') == 0 ==> r == directory + "/" + fileName
  {
    var pathPart := directory + "/" + fileName;
    if page.None? then "/" + pathPart
    else
      var dropDownTimes := |Split(page.value, '/')| - 1;
      Repeat("../", dropDownTimes) + pathPart
  }

  /** The directory a page URL lives in, as the segments a browser uses as the
      base for relative references: every `/`-separated part but the last. */
  function PageDirectory(url: string): (dir: seq<string>)
    ensures |dir| == Count(url, '/')
  {
    var parts := Split(url, '/');
    parts[..|parts| - 1]
  }

  /** Directory segments written out as a path from the site root. */
  function JoinSegments(dir: seq<string>): string
  {
    if |dir| == 0 then "" else JoinSegments(dir[..|dir| - 1]) + dir[|dir| - 1] + "/"
  }

  /** Resolution of a relative reference from directory `dir` as far as
      leading `../` segments go (RFC 3986 section 5.2.4: each one removes the
      last directory segment, never climbing above the root); the result is a
      path from the site root. */
  function Resolve(dir: seq<string>, ref: string): string
    decreases |ref|
  {
    if StartsWith(ref, "../") then
      Resolve(if |dir| == 0 then dir else dir[..|dir| - 1], ref[3..])
    else JoinSegments(dir) + ref
  }

  /** k leading `../` from a directory at least k deep land k segments up. */
  lemma {:induction false} ResolveClimbs(dir: seq<string>, k: nat, rest: string)
    requires k <= |dir|
    requires !StartsWith(rest, "../")
    ensures Resolve(dir, Repeat("../", k) + rest) == JoinSegments(dir[..|dir| - k]) + rest
    decreases k
  {
    if k == 0 {
      assert Repeat("../", 0) + rest == rest;
      assert dir[..|dir|] == dir;
    } else {
      var ref := Repeat("../", k) + rest;
      assert ref == "../" + (Repeat("../", k - 1) + rest);
      assert ref[..3] == "../";
      assert ref[3..] == Repeat("../", k - 1) + rest;
      var up := dir[..|dir| - 1];
      ResolveClimbs(up, k - 1, rest);
      assert up[..|up| - (k - 1)] == dir[..|dir| - k];
    }
  }

  /** The embed path computed for a page, resolved from that page's URL,
      reaches `directory/fileName` at the site root, whatever the page's depth. */
  lemma EmbedPathReachesSiteRoot(directory: string, fileName: string, url: string)
    requires directory != ".." && !StartsWith(directory, "../")
    ensures Resolve(PageDirectory(url), FindRelPath(directory, fileName, Some(url)))
            == directory + "/" + fileName
  {
    var dir := PageDirectory(url);
    var pathPart := directory + "/" + fileName;
    assert !StartsWith(pathPart, "../") by {
      if |directory| >= 3 {
        assert pathPart[..3] == directory[..3];
      } else if |directory| == 2 {
        assert pathPart[..3] == directory + "/";
        assert (directory + "/")[..2] == directory;
      } else if |directory| == 1 {
        assert pathPart[1] == '/' != "../"[1];
      } else {
        assert pathPart[0] == '/' != "../"[0];
      }
    }
    ResolveClimbs(dir, |dir|, pathPart);
    assert dir[..0] == [];
  }
}

=== FILE: plugin.dfy ===
/** The plugin's page processing and its two host hooks: scan and rewrite the
    page, fetch what is missing, and hand the page back. */
module Plugin {
  import opened Wrappers
  import opened Strings
  import opened Paths
  import opened OrderedMap
  import opened Document
  import opened Localizer
  import opened Fetcher

  /** The result of processing one page: the rewritten page together with the
      paths that exist afterwards and the URLs requested; or, when a download
      failed, the failing URL (no page is handed back, but files fetched
      before the failure stay on disk). */
  datatype Outcome =
    | Processed(doc: seq<Node>, fs: set<string>, requests: seq<string>)
    | Aborted(failedUrl: string, fs: set<string>, requests: seq<string>)

  /** The files a page's localized assets are stored in, stated from the page:
      the `.css` copy of every stylesheet URL and the `.js` copy of every
      script URL no stylesheet shares. */
  function Destinations(cfg: Config, hash: Hasher, doc: seq<Node>): set<string>
  {
    (set u | u in Requested(cfg, Stylesheet, doc) :: AssetDestination(cfg, hash, Stylesheet, u))
    + (set u | u in Requested(cfg, Script, doc) && u !in Requested(cfg, Stylesheet, doc) :: AssetDestination(cfg, hash, Script, u))
  }

  /** Every URL a page asks to have localized is absolute. */
  lemma {:induction false} AssetUrlsAbsolute(kind: Kind, nodes: seq<Node>, u: string)
    requires u in AssetUrls(kind, nodes)
    ensures !IsRelativeUrl(u)
  {
    var init := nodes[..|nodes| - 1];
    if u in AssetUrls(kind, init) {
      AssetUrlsAbsolute(kind, init, u);
    }
  }

  /** The values of the finished URL map are exactly the page's destinations. */
  lemma ScanValues(cfg: Config, hash: Hasher, page: Option<string>, doc: seq<Node>)
    ensures Values(Scan(cfg, hash, page, doc).urls) == Destinations(cfg, hash, doc)
  {
    var m := Scan(cfg, hash, page, doc).urls;
    ScanKeys(cfg, hash, page, doc);
    forall v | v in Values(m) ensures v in Destinations(cfg, hash, doc) {
      var i := ValueIndex(m, v);
      LookupEntry(m, i);
      ScanLookup(cfg, hash, page, doc, m[i].0);
    }
    forall v | v in Destinations(cfg, hash, doc) ensures v in Values(m) {
      if u :| u in Requested(cfg, Stylesheet, doc) && v == AssetDestination(cfg, hash, Stylesheet, u) {
        ScanLookup(cfg, hash, page, doc, u);
        LookupInValues(m, u);
      } else {
        var u :| u in Requested(cfg, Script, doc) && u !in Requested(cfg, Stylesheet, doc)
                 && v == AssetDestination(cfg, hash, Script, u);
        ScanLookup(cfg, hash, page, doc, u);
        LookupInValues(m, u);
      }
    }
  }

  /** Every URL the download loop over the finished map requests is one the
      page asked to have localized, and is absolute. */
  lemma ScanRequestsAreAssets(cfg: Config, hash: Hasher, page: Option<string>, doc: seq<Node>, fs: set<string>, u: string)
    requires u in Missing(Scan(cfg, hash, page, doc).urls, fs)
    ensures u in Requested(cfg, Script, doc) + Requested(cfg, Stylesheet, doc)
    ensures !IsRelativeUrl(u)
  {
    var m := Scan(cfg, hash, page, doc).urls;
    MissingAreKeys(m, fs, u);
    ScanKeys(cfg, hash, page, doc);
    if u in Requested(cfg, Script, doc) {
      AssetUrlsAbsolute(Script, doc, u);
    } else {
      AssetUrlsAbsolute(Stylesheet, doc, u);
    }
  }

  /** The one attribute the scan changes on a localized element, and its new
      value: the embed path of the element's local copy. */
  lemma RewrittenAttribute(cfg: Config, hash: Hasher, page: Option<string>, n: Node, kind: Kind)
    requires Enabled(cfg, kind) && Localizable(kind, n)
    ensures var m := Rewritten(cfg, hash, page, n);
            && m.Element?
            && m.attrs == n.attrs[UrlAttribute(kind) := FindRelPath(cfg.directory, LocalName(hash, kind, AssetUrl(kind, n)), page)]
            && m.tag == n.tag && m.rel == n.rel
  {
  }

  /** `_html_proc`: scan and rewrite the page, then run the download loop over
      the URL map; a failed download aborts the page. */
  function HtmlProc(cfg: Config, hash: Hasher, page: Option<string>, doc: seq<Node>, fs: set<string>, online: Network): (r: Outcome)
    ensures r.Processed? ==> |r.doc| == |doc|
    ensures r.Processed? ==> forall i :: 0 <= i < |doc| ==> r.doc[i] == Rewritten(cfg, hash, page, doc[i])
    ensures fs <= r.fs <= fs + Destinations(cfg, hash, doc)
    ensures r.Processed? ==> Destinations(cfg, hash, doc) <= r.fs
    ensures forall u :: u in r.requests ==> u in Requested(cfg, Script, doc) + Requested(cfg, Stylesheet, doc)
    ensures forall u :: u in r.requests ==> !IsRelativeUrl(u)
    ensures forall i :: 0 <= i < |r.requests| - 1 ==> online(r.requests[i])
    ensures r.Aborted? ==> |r.requests| > 0 && r.failedUrl == r.requests[|r.requests| - 1] && !online(r.failedUrl)
    ensures (forall u :: online(u)) ==> r.Processed?
    ensures Destinations(cfg, hash, doc) <= fs ==> r.Processed? && r.fs == fs && r.requests == []
  {
    var s := Scan(cfg, hash, page, doc);
    var f := Fetch(s.urls, fs, online);
    ScanValues(cfg, hash, page, doc);
    assert forall u :: u in f.requests ==> u in Requested(cfg, Script, doc) + Requested(cfg, Stylesheet, doc) && !IsRelativeUrl(u) by {
      forall u | u in f.requests
        ensures u in Requested(cfg, Script, doc) + Requested(cfg, Stylesheet, doc) && !IsRelativeUrl(u)
      {
        ScanRequestsAreAssets(cfg, hash, page, doc, fs, u);
      }
    }
    if f.failure.None? then Processed(s.doc, f.fs, f.requests)
    else Aborted(f.failure.value, f.fs, f.requests)
  }

  /** `on_post_page`: a page is processed with its URL, so the embed paths
      climb from the page's directory back to the site root. */
  function OnPostPage(cfg: Config, hash: Hasher, pageUrl: string, doc: seq<Node>, fs: set<string>, online: Network): (r: Outcome)
    ensures r.Processed? ==> |r.doc| == |doc|
    ensures r.Processed? ==>
              forall i, kind :: 0 <= i < |doc| && Enabled(cfg, kind) && Localizable(kind, doc[i]) ==>
                r.doc[i].Element? && UrlAttribute(kind) in r.doc[i].attrs &&
                r.doc[i].attrs[UrlAttribute(kind)]
                == Repeat("../", Count(pageUrl, '/')) + cfg.directory + "/" + LocalName(hash, kind, AssetUrl(kind, doc[i]))
    ensures r.Processed? ==> Destinations(cfg, hash, doc) <= r.fs
  {
    var r := HtmlProc(cfg, hash, Some(pageUrl), doc, fs, online);
    assert r.Processed? ==>
              forall i, kind :: 0 <= i < |doc| && Enabled(cfg, kind) && Localizable(kind, doc[i]) ==>
                r.doc[i].Element? && UrlAttribute(kind) in r.doc[i].attrs &&
                r.doc[i].attrs[UrlAttribute(kind)]
                == Repeat("../", Count(pageUrl, '/')) + cfg.directory + "/" + LocalName(hash, kind, AssetUrl(kind, doc[i])) by {
      if r.Processed? {
        forall i, kind | 0 <= i < |doc| && Enabled(cfg, kind) && Localizable(kind, doc[i])
          ensures r.doc[i].Element? && UrlAttribute(kind) in r.doc[i].attrs &&
                  r.doc[i].attrs[UrlAttribute(kind)]
                  == Repeat("../", Count(pageUrl, '/')) + cfg.directory + "/" + LocalName(hash, kind, AssetUrl(kind, doc[i]))
        {
          RewrittenAttribute(cfg, hash, Some(pageUrl), doc[i], kind);
        }
      }
    }
    r
  }

  /** `on_post_template`: a template whose name does not end in `.html` is
      handed back untouched with nothing fetched; any other is processed with
      no page, so its embed paths are root-absolute. */
  function OnPostTemplate(cfg: Config, hash: Hasher, templateName: string, doc: seq<Node>, fs: set<string>, online: Network): (r: Outcome)
    ensures !EndsWith(templateName, ".html") ==> r == Processed(doc, fs, [])
    ensures EndsWith(templateName, ".html") && r.Processed? ==>
              |r.doc| == |doc| &&
              forall i, kind :: 0 <= i < |doc| && Enabled(cfg, kind) && Localizable(kind, doc[i]) ==>
                r.doc[i].Element? && UrlAttribute(kind) in r.doc[i].attrs &&
                r.doc[i].attrs[UrlAttribute(kind)] == "/" + cfg.directory + "/" + LocalName(hash, kind, AssetUrl(kind, doc[i]))
    ensures EndsWith(templateName, ".html") && r.Processed? ==> Destinations(cfg, hash, doc) <= r.fs
  {
    if EndsWith(templateName, ".html") then
      var r := HtmlProc(cfg, hash, None, doc, fs, online);
      assert r.Processed? ==>
              forall i, kind :: 0 <= i < |doc| && Enabled(cfg, kind) && Localizable(kind, doc[i]) ==>
                r.doc[i].Element? && UrlAttribute(kind) in r.doc[i].attrs &&
                r.doc[i].attrs[UrlAttribute(kind)] == "/" + cfg.directory + "/" + LocalName(hash, kind, AssetUrl(kind, doc[i])) by {
        if r.Processed? {
          forall i, kind | 0 <= i < |doc| && Enabled(cfg, kind) && Localizable(kind, doc[i])
            ensures r.doc[i].Element? && UrlAttribute(kind) in r.doc[i].attrs &&
                    r.doc[i].attrs[UrlAttribute(kind)] == "/" + cfg.directory + "/" + LocalName(hash, kind, AssetUrl(kind, doc[i]))
          {
            RewrittenAttribute(cfg, hash, None, doc[i], kind);
          }
        }
      }
      r
    else Processed(doc, fs, [])
  }
}

=== FILE: properties.dfy ===
/** Properties of page processing as a whole: deduplication of downloads,
    re-runs, the paths produced, and the worked scenario of a single remote
    script. */
module Properties {
  import opened Wrappers
  import opened Strings
  import opened Paths
  import opened OrderedMap
  import opened Document
  import opened Localizer
  import opened Fetcher
  import opened Plugin

  /** With a hex digest that tells the two URLs apart, two assets share a
      file on disk only when they are the same URL localized as the same
      kind. */
  lemma DestinationInjective(cfg: Config, hash: Hasher, kind1: Kind, u1: string, kind2: Kind, u2: string)
    requires IsSha256Hex(hash) && (hash(u1) == hash(u2) ==> u1 == u2)
    requires AssetDestination(cfg, hash, kind1, u1) == AssetDestination(cfg, hash, kind2, u2)
    ensures u1 == u2 && kind1 == kind2
  {
    var n1 := LocalName(hash, kind1, u1);
    var n2 := LocalName(hash, kind2, u2);
    assert n1[..1] == [n1[0]] && n1[0] != '/';
    assert n2[..1] == [n2[0]] && n2[0] != '/';
    PathJoinInjective(PathJoin(cfg.siteDir, cfg.directory), n1, n2);
    LocalNameInjective(hash, kind1, u1, kind2, u2);
  }

  /** With a hex digest that tells the two URLs apart, equal file names
      come from the same URL and kind. */
  lemma LocalNameInjective(hash: Hasher, kind1: Kind, u1: string, kind2: Kind, u2: string)
    requires IsSha256Hex(hash) && (hash(u1) == hash(u2) ==> u1 == u2)
    requires LocalName(hash, kind1, u1) == LocalName(hash, kind2, u2)
    ensures u1 == u2 && kind1 == kind2
  {
    var n1 := LocalName(hash, kind1, u1);
    var n2 := LocalName(hash, kind2, u2);
    assert |Extension(kind1)| == |Extension(kind2)|;
    assert hash(u1) == n1[..64] == n2[..64] == hash(u2);
  }

  /** With a hex digest free of collisions among the page's URLs, no two
      entries of the URL map share a destination. */
  lemma DistinctDestinations(cfg: Config, hash: Hasher, page: Option<string>, doc: seq<Node>)
    requires IsSha256Hex(hash) && CollisionFreeOn(hash, Requested(cfg, Script, doc) + Requested(cfg, Stylesheet, doc))
    ensures DistinctValues(Scan(cfg, hash, page, doc).urls)
  {
    var m := Scan(cfg, hash, page, doc).urls;
    ScanKeys(cfg, hash, page, doc);
    forall i, j | 0 <= i < j < |m| ensures m[i].1 != m[j].1 {
      assert Keys(m)[i] != Keys(m)[j];
      LookupEntry(m, i);
      LookupEntry(m, j);
      ScanLookup(cfg, hash, page, doc, m[i].0);
      ScanLookup(cfg, hash, page, doc, m[j].0);
      var ki := if m[i].0 in Requested(cfg, Stylesheet, doc) then Stylesheet else Script;
      var kj := if m[j].0 in Requested(cfg, Stylesheet, doc) then Stylesheet else Script;
      if m[i].1 == m[j].1 {
        DestinationInjective(cfg, hash, ki, m[i].0, kj, m[j].0);
      }
    }
  }

  /** One download per distinct remote URL: processing a page never requests
      the same URL twice. The dict guarantees it, whatever the digest. */
  lemma RequestsNeverRepeat(cfg: Config, hash: Hasher, page: Option<string>, doc: seq<Node>, fs: set<string>, online: Network)
    ensures Distinct(HtmlProc(cfg, hash, page, doc, fs, online).requests)
  {
    ScanKeys(cfg, hash, page, doc);
    FetchRequestsDistinct(Scan(cfg, hash, page, doc).urls, fs, online);
  }

  /** A page that is fully processed requested exactly the URLs whose
      destination did not exist yet, in the map's order. */
  lemma ProcessedRequestsAreMissing(cfg: Config, hash: Hasher, page: Option<string>, doc: seq<Node>, fs: set<string>, online: Network)
    requires IsSha256Hex(hash) && CollisionFreeOn(hash, Requested(cfg, Script, doc) + Requested(cfg, Stylesheet, doc))
    ensures var r := HtmlProc(cfg, hash, page, doc, fs, online);
            r.Processed? ==> r.requests == Missing(Scan(cfg, hash, page, doc).urls, fs)
    ensures var r := HtmlProc(cfg, hash, page, doc, fs, online);
            r.Processed? ==>
              forall u :: u in r.requests <==>
                ExpectedDestination(cfg, hash, doc, u).Some? && ExpectedDestination(cfg, hash, doc, u).value !in fs
  {
    var m := Scan(cfg, hash, page, doc).urls;
    var r := HtmlProc(cfg, hash, page, doc, fs, online);
    DistinctDestinations(cfg, hash, page, doc);
    ScanKeys(cfg, hash, page, doc);
    FetchRequestsMissing(m, fs, online);
    forall u | r.Processed?
      ensures u in r.requests <==>
              ExpectedDestination(cfg, hash, doc, u).Some? && ExpectedDestination(cfg, hash, doc, u).value !in fs
    {
      MissingMembers(m, fs, u);
      ScanLookup(cfg, hash, page, doc, u);
    }
  }

  /** Processing a page again once it went through requests nothing, cannot
      fail whatever the network does, and gives the same page. */
  lemma RerunRequestsNothing(cfg: Config, hash: Hasher, page: Option<string>, doc: seq<Node>, fs: set<string>, online: Network, later: Network)
    requires HtmlProc(cfg, hash, page, doc, fs, online).Processed?
    ensures var r := HtmlProc(cfg, hash, page, doc, fs, online);
            HtmlProc(cfg, hash, page, doc, r.fs, later) == Processed(r.doc, r.fs, [])
  {
    var r := HtmlProc(cfg, hash, page, doc, fs, online);
    var again := HtmlProc(cfg, hash, page, doc, r.fs, later);
    assert again.Processed?;
    assert again.doc == r.doc;
  }

  /** Every element referring to the same URL as the same kind gets the same
      new value. */
  lemma SameUrlSameEmbed(cfg: Config, hash: Hasher, page: Option<string>, doc: seq<Node>, kind: Kind, i: nat, j: nat)
    requires i < |doc| && j < |doc|
    requires Enabled(cfg, kind) && Localizable(kind, doc[i]) && Localizable(kind, doc[j])
    requires AssetUrl(kind, doc[i]) == AssetUrl(kind, doc[j])
    ensures var d := Scan(cfg, hash, page, doc).doc;
            && d[i].Element? && UrlAttribute(kind) in d[i].attrs
            && d[j].Element? && UrlAttribute(kind) in d[j].attrs
            && d[i].attrs[UrlAttribute(kind)] == d[j].attrs[UrlAttribute(kind)]
  {
    RewrittenAttribute(cfg, hash, page, doc[i], kind);
    RewrittenAttribute(cfg, hash, page, doc[j], kind);
  }

  /** A URL used both by a localized script and by a localized stylesheet is
      assigned twice; the link loop runs second, so the map keeps the URL's
      first position but its `.css` destination. */
  lemma SharedUrlEndsAtStylesheetCopy(cfg: Config, hash: Hasher, page: Option<string>, doc: seq<Node>, u: string)
    requires u in Requested(cfg, Script, doc) && u in Requested(cfg, Stylesheet, doc)
    ensures Lookup(Scan(cfg, hash, page, doc).urls, u) == Some(AssetDestination(cfg, hash, Stylesheet, u))
  {
    ScanLookup(cfg, hash, page, doc, u);
  }

  /** Consequence of the last-write-wins map: for a URL shared by a script and
      a stylesheet, the `.js` copy the script is rewritten to is none of the
      page's destinations. */
  lemma SharedUrlScriptCopyNotDestination(cfg: Config, hash: Hasher, doc: seq<Node>, u: string)
    requires IsSha256Hex(hash) && CollisionFreeOn(hash, Requested(cfg, Script, doc) + Requested(cfg, Stylesheet, doc))
    requires u in Requested(cfg, Script, doc) && u in Requested(cfg, Stylesheet, doc)
    ensures AssetDestination(cfg, hash, Script, u) !in Destinations(cfg, hash, doc)
  {
    var f := AssetDestination(cfg, hash, Script, u);
    if f in Destinations(cfg, hash, doc) {
      if v :| v in Requested(cfg, Stylesheet, doc) && f == AssetDestination(cfg, hash, Stylesheet, v) {
        DestinationInjective(cfg, hash, Script, u, Stylesheet, v);
      } else {
        var v :| v in Requested(cfg, Script, doc) && v !in Requested(cfg, Stylesheet, doc)
                 && f == AssetDestination(cfg, hash, Script, v);
        DestinationInjective(cfg, hash, Script, u, Script, v);
      }
    }
  }

  /** So processing the page never creates the file the shared URL's
      `<script>` now points at. */
  lemma SharedUrlScriptCopyNotFetched(cfg: Config, hash: Hasher, page: Option<string>, doc: seq<Node>, fs: set<string>, online: Network, u: string)
    requires IsSha256Hex(hash) && CollisionFreeOn(hash, Requested(cfg, Script, doc) + Requested(cfg, Stylesheet, doc))
    requires u in Requested(cfg, Script, doc) && u in Requested(cfg, Stylesheet, doc)
    ensures var f := AssetDestination(cfg, hash, Script, u);
            f in HtmlProc(cfg, hash, page, doc, fs, online).fs <==> f in fs
  {
    SharedUrlScriptCopyNotDestination(cfg, hash, doc, u);
  }

  /** A page without a remote script or stylesheet the configuration
      localizes comes back as it was, with nothing fetched. */
  lemma NoRemoteAssetsNoChange(cfg: Config, hash: Hasher, page: Option<string>, doc: seq<Node>, fs: set<string>, online: Network)
    requires forall i :: 0 <= i < |doc| ==> !(cfg.downloadJs && Localizable(Script, doc[i]))
    requires forall i :: 0 <= i < |doc| ==> !(cfg.downloadCss && Localizable(Stylesheet, doc[i]))
    ensures HtmlProc(cfg, hash, page, doc, fs, online) == Processed(doc, fs, [])
  {
    NoneLocalizable(cfg, Script, doc);
    NoneLocalizable(cfg, Stylesheet, doc);
    assert Destinations(cfg, hash, doc) == {};
    var r := HtmlProc(cfg, hash, page, doc, fs, online);
    assert r.doc == doc;
  }

  /** A page none of whose elements is localizable as an enabled kind asks
      for nothing of that kind. */
  lemma {:induction false} NoneLocalizable(cfg: Config, kind: Kind, doc: seq<Node>)
    requires forall i :: 0 <= i < |doc| ==> !(Enabled(cfg, kind) && Localizable(kind, doc[i]))
    ensures Requested(cfg, kind, doc) == []
  {
    if |doc| > 0 && Enabled(cfg, kind) {
      NoneLocalizable(cfg, kind, doc[..|doc| - 1]);
    }
  }

  /** On a page, each rewritten reference, resolved from the page's own URL,
      names the local copy in the asset directory at the site root. */
  lemma PageEmbedsResolveToLocalCopies(cfg: Config, hash: Hasher, pageUrl: string, doc: seq<Node>, fs: set<string>, online: Network, i: nat, kind: Kind)
    requires cfg.directory != ".." && !StartsWith(cfg.directory, "../")
    requires i < |doc| && Enabled(cfg, kind) && Localizable(kind, doc[i])
    ensures var r := OnPostPage(cfg, hash, pageUrl, doc, fs, online);
            r.Processed? ==>
              && r.doc[i].Element? && UrlAttribute(kind) in r.doc[i].attrs
              && Resolve(PageDirectory(pageUrl), r.doc[i].attrs[UrlAttribute(kind)])
                 == cfg.directory + "/" + LocalName(hash, kind, AssetUrl(kind, doc[i]))
  {
    EmbedPathReachesSiteRoot(cfg.directory, LocalName(hash, kind, AssetUrl(kind, doc[i])), pageUrl);
  }

  /** The directory part of the destination for a plain `site_dir` and a
      relative `directory`. */
  lemma AssetDirectoryLayout(siteDir: string, directory: string)
    requires siteDir != "" && !EndsWith(siteDir, "/")
    requires directory != "" && !StartsWith(directory, "/") && !EndsWith(directory, "/")
    ensures PathJoin(siteDir, directory) == siteDir + "/" + directory
    ensures !EndsWith(siteDir + "/" + directory, "/")
  {
    PathJoinPlain(siteDir, directory);
    var base := siteDir + "/" + directory;
    assert base[|base| - 1] == directory[|directory| - 1];
    assert directory[|directory| - 1..] == [directory[|directory| - 1]];
  }

  /** For the usual configuration the file lands at
      `site_dir/directory/<digest><ext>`. */
  lemma DestinationLayout(cfg: Config, hash: Hasher, kind: Kind, u: string)
    requires IsSha256Hex(hash)
    requires cfg.siteDir != "" && !EndsWith(cfg.siteDir, "/")
    requires cfg.directory != "" && !StartsWith(cfg.directory, "/") && !EndsWith(cfg.directory, "/")
    ensures AssetDestination(cfg, hash, kind, u) == cfg.siteDir + "/" + cfg.directory + "/" + hash(u) + Extension(kind)
  {
    var name := LocalName(hash, kind, u);
    assert name[0] != '/';
    AssetDirectoryLayout(cfg.siteDir, cfg.directory);
    PathJoinPlain(cfg.siteDir + "/" + cfg.directory, name);
  }

  /** A configured directory starting with `/` drops `site_dir` from the
      destination, as `os.path.join` does. */
  lemma AbsoluteDirectoryLeavesSite(cfg: Config, hash: Hasher, kind: Kind, u: string)
    requires IsSha256Hex(hash)
    requires StartsWith(cfg.directory, "/") && !EndsWith(cfg.directory, "/")
    ensures AssetDestination(cfg, hash, kind, u) == cfg.directory + "/" + hash(u) + Extension(kind)
  {
    var name := LocalName(hash, kind, u);
    assert name[0] != '/';
    PathJoinAbsolute(cfg.siteDir, cfg.directory);
    assert AssetDestination(cfg, hash, kind, u) == PathJoin(cfg.directory, name);
    PathJoinPlain(cfg.directory, name);
  }

  /** The kind a localizable element is not. */
  function OtherKind(kind: Kind): Kind
  {
    if kind == Script then Stylesheet else Script
  }

  /** A page made of one localizable element asks for its URL as that
      element's kind and for nothing as the other kind. */
  lemma OneAssetRequested(cfg: Config, kind: Kind, n: Node)
    requires Enabled(cfg, kind) && Localizable(kind, n)
    ensures Requested(cfg, kind, [n]) == [AssetUrl(kind, n)]
    ensures Requested(cfg, OtherKind(kind), [n]) == []
  {
    assert [n][..0] == [];
    assert AssetUrls(kind, [n]) == AssetUrls(kind, []) + [AssetUrl(kind, n)];
    assert n.tag != TagName(OtherKind(kind)) by {
      assert "script"[0] != "link"[0];
    }
    assert AssetUrls(OtherKind(kind), [n]) == AssetUrls(OtherKind(kind), []) + [];
  }

  /** The URLs of a one-element page, script URLs first. */
  lemma OneAssetKeys(cfg: Config, kind: Kind, n: Node)
    requires Enabled(cfg, kind) && Localizable(kind, n)
    ensures Requested(cfg, Script, [n]) + Requested(cfg, Stylesheet, [n]) == [AssetUrl(kind, n)]
  {
    OneAssetRequested(cfg, kind, n);
    var u := AssetUrl(kind, n);
    if kind == Script {
      assert [u] + [] == [u];
    } else {
      assert [] + [u] == [u];
    }
  }

  /** A page made of one localizable element: the scan rewrites it and the
      map holds its URL alone, with the destination for its kind. */
  lemma {:induction false} OneAssetScan(cfg: Config, hash: Hasher, page: Option<string>, kind: Kind, n: Node)
    requires Enabled(cfg, kind) && Localizable(kind, n)
    ensures Scan(cfg, hash, page, [n]).doc == [Rewritten(cfg, hash, page, n)]
    ensures Scan(cfg, hash, page, [n]).urls == [(AssetUrl(kind, n), AssetDestination(cfg, hash, kind, AssetUrl(kind, n)))]
  {
    OneAssetScanUrls(cfg, hash, page, kind, n);
  }

  lemma {:induction false} OneAssetScanUrls(cfg: Config, hash: Hasher, page: Option<string>, kind: Kind, n: Node)
    requires Enabled(cfg, kind) && Localizable(kind, n)
    ensures Scan(cfg, hash, page, [n]).urls == [(AssetUrl(kind, n), AssetDestination(cfg, hash, kind, AssetUrl(kind, n)))]
  {
    var u := AssetUrl(kind, n);
    var m := Scan(cfg, hash, page, [n]).urls;
    OneAssetKeys(cfg, kind, n);
    ScanKeys(cfg, hash, page, [n]);
    assert Keys(m) == [u] by {
      assert [u][..0] == [];
    }
    OneAssetRequested(cfg, kind, n);
    ScanLookup(cfg, hash, page, [n], u);
    assert Lookup(m, u) == Some(AssetDestination(cfg, hash, kind, u));
    SingleKey(m, u);
  }

  /** Where the worked scenario's script is stored. */
  lemma ScenarioDestination(hash: Hasher)
    requires IsSha256Hex(hash)
    ensures AssetDestination(Config(true, true, "vendor", "site"), hash, Script, "https://ex.com/a.js")
            == "site/vendor/" + hash("https://ex.com/a.js") + ".js"
  {
    assert !EndsWith("site", "/") by { assert "site"[3] != '/'; }
    assert !EndsWith("vendor", "/") by { assert "vendor"[5] != '/'; }
    DestinationLayout(Config(true, true, "vendor", "site"), hash, Script, "https://ex.com/a.js");
    assert "site" + "/" + "vendor" + "/" == "site/vendor/";
  }

  /** The embed path of an asset file on a page at `guide/`. */
  lemma GuideEmbedPath(name: string)
    ensures FindRelPath("vendor", name, Some("guide/")) == "../vendor/" + name
  {
    assert Count("guide/", '/') == 1;
    assert Repeat("../", 1) == "../";
    assert "../" + "vendor" + "/" + name == "../vendor/" + name;
  }

  /** The worked scenario's script after the scan. */
  lemma ScenarioRewritten(hash: Hasher)
    ensures var script := Element("script", map["src" := "https://ex.com/a.js"], []);
            && Localizable(Script, script)
            && Rewritten(Config(true, true, "vendor", "site"), hash, Some("guide/"), script)
               == Element("script", map["src" := "../vendor/" + hash("https://ex.com/a.js") + ".js"], [])
  {
    var url := "https://ex.com/a.js";
    var script := Element("script", map["src" := url], []);
    assert url[..8] == "https://";
    assert Localizable(Script, script);
    var name := hash(url) + ".js";
    GuideEmbedPath(name);
    var embed := "../vendor/" + name;
    assert embed == "../vendor/" + hash(url) + ".js";
    RewrittenAttribute(Config(true, true, "vendor", "site"), hash, Some("guide/"), script, Script);
    assert map["src" := url]["src" := embed] == map["src" := embed];
  }

  /** The scan of the worked scenario below. */
  lemma SingleRemoteScriptScan(hash: Hasher)
    requires IsSha256Hex(hash)
    ensures var url := "https://ex.com/a.js";
            var s := Scan(Config(true, true, "vendor", "site"), hash, Some("guide/"), [Element("script", map["src" := url], [])]);
            && s.doc == [Element("script", map["src" := "../vendor/" + hash(url) + ".js"], [])]
            && s.urls == [(url, "site/vendor/" + hash(url) + ".js")]
  {
    var script := Element("script", map["src" := "https://ex.com/a.js"], []);
    ScenarioRewritten(hash);
    ScenarioDestination(hash);
    OneAssetScan(Config(true, true, "vendor", "site"), hash, Some("guide/"), Script, script);
  }

  /** The worked scenario, a page at depth one (`guide/`) holding one remote
      script with `directory = "vendor"`, when the local copy already exists:
      the script points at `../vendor/<digest>.js` and nothing is requested. */
  lemma ScenarioCached(hash: Hasher, fs: set<string>, online: Network)
    requires IsSha256Hex(hash)
    requires "site/vendor/" + hash("https://ex.com/a.js") + ".js" in fs
    ensures var url := "https://ex.com/a.js";
            OnPostPage(Config(true, true, "vendor", "site"), hash, "guide/", [Element("script", map["src" := url], [])], fs, online)
            == Processed([Element("script", map["src" := "../vendor/" + hash(url) + ".js"], [])], fs, [])
  {
    var url := "https://ex.com/a.js";
    var file := "site/vendor/" + hash(url) + ".js";
    SingleRemoteScriptScan(hash);
    assert [(url, file)][1..] == [];
    assert Fetch([(url, file)], fs, online) == Fetch([], fs, online);
  }

  /** The worked scenario when the copy is missing and the fetch succeeds:
      the URL is the one request and its copy exists afterwards. */
  lemma ScenarioDownloads(hash: Hasher, fs: set<string>, online: Network)
    requires IsSha256Hex(hash)
    requires "site/vendor/" + hash("https://ex.com/a.js") + ".js" !in fs
    requires online("https://ex.com/a.js")
    ensures var url := "https://ex.com/a.js";
            OnPostPage(Config(true, true, "vendor", "site"), hash, "guide/", [Element("script", map["src" := url], [])], fs, online)
            == Processed([Element("script", map["src" := "../vendor/" + hash(url) + ".js"], [])],
                         fs + {"site/vendor/" + hash(url) + ".js"}, [url])
  {
    var url := "https://ex.com/a.js";
    SingleRemoteScriptScan(hash);
    FetchOneMissing(url, "site/vendor/" + hash(url) + ".js", fs, online);
  }

  /** A one-entry map whose file is missing and whose fetch succeeds. */
  lemma FetchOneMissing(url: string, file: string, fs: set<string>, online: Network)
    requires file !in fs && online(url)
    ensures Fetch([(url, file)], fs, online) == Fetched(fs + {file}, [url], None)
  {
    assert [(url, file)][1..] == [];
    var rest := Fetch([], fs + {file}, online);
    assert Fetch([(url, file)], fs, online) == Fetched(rest.fs, [url] + rest.requests, rest.failure);
  }

  /** The worked scenario when the copy is missing and the fetch fails: the
      page is aborted at that URL and nothing is written. */
  lemma ScenarioOffline(hash: Hasher, fs: set<string>, online: Network)
    requires IsSha256Hex(hash)
    requires "site/vendor/" + hash("https://ex.com/a.js") + ".js" !in fs
    requires !online("https://ex.com/a.js")
    ensures var url := "https://ex.com/a.js";
            OnPostPage(Config(true, true, "vendor", "site"), hash, "guide/", [Element("script", map["src" := url], [])], fs, online)
            == Aborted(url, fs, [url])
  {
    var url := "https://ex.com/a.js";
    var file := "site/vendor/" + hash(url) + ".js";
    SingleRemoteScriptScan(hash);
    assert Fetch([(url, file)], fs, online) == Fetched(fs, [url], Some(url));
  }

  /** Across pages: once a page has been processed, a later page does not
      ask again for a URL whose destination there is the one it had on the
      first page, because that file now exists. */
  lemma CrossPageNoRefetch(cfg: Config, hash: Hasher, pageA: Option<string>, docA: seq<Node>, pageB: Option<string>, docB: seq<Node>,
                           fs: set<string>, online: Network, later: Network, u: string)
    requires ExpectedDestination(cfg, hash, docA, u).Some?
    requires ExpectedDestination(cfg, hash, docB, u) == ExpectedDestination(cfg, hash, docA, u)
    ensures var a := HtmlProc(cfg, hash, pageA, docA, fs, online);
            a.Processed? ==> u !in HtmlProc(cfg, hash, pageB, docB, a.fs, later).requests
  {
    var a := HtmlProc(cfg, hash, pageA, docA, fs, online);
    if a.Processed? {
      var fsA := a.fs;
      var d := ExpectedDestination(cfg, hash, docA, u).value;
      var mA := Scan(cfg, hash, pageA, docA).urls;
      ScanLookup(cfg, hash, pageA, docA, u);
      LookupInValues(mA, u);
      ScanValues(cfg, hash, pageA, docA);
      assert d in fsA;
      var mB := Scan(cfg, hash, pageB, docB).urls;
      ScanKeys(cfg, hash, pageB, docB);
      ScanLookup(cfg, hash, pageB, docB, u);
      MissingMembers(mB, fsA, u);
      assert u !in Missing(mB, fsA);
      assert HtmlProc(cfg, hash, pageB, docB, fsA, later).requests == Fetch(mB, fsA, later).requests;
    }
  }

  /** The destination, and so the deduplication, is per URL and kind: a URL
      used by a `<script>` on one page and by a stylesheet `<link>` on the
      next is downloaded on both pages, to two files, when the asset
      directory starts empty and the fetch succeeds. */
  lemma SharedUrlFetchedOncePerKind(hash: Hasher, online: Network, url: string)
    requires IsSha256Hex(hash) && !IsRelativeUrl(url) && online(url)
    ensures var cfg := Config(true, true, "vendor", "site");
            var a := HtmlProc(cfg, hash, None, [Element("script", map["src" := url], [])], {}, online);
            var b := HtmlProc(cfg, hash, None, [Element("link", map["href" := url], ["stylesheet"])], a.fs, online);
            a.Processed? && a.requests == [url] && b.Processed? && b.requests == [url]
  {
    var cfg := Config(true, true, "vendor", "site");
    var script := Element("script", map["src" := url], []);
    var link := Element("link", map["href" := url], ["stylesheet"]);
    ScenarioKindsApart(hash, url);
    ScenarioElementsLocalizable(url);
    OneAssetFetched(cfg, hash, None, Script, script, {}, online);
    var a := HtmlProc(cfg, hash, None, [script], {}, online);
    OneAssetFetched(cfg, hash, None, Stylesheet, link, a.fs, online);
  }

  /** A remote URL as a script's `src` and as a stylesheet link's `href`. */
  lemma ScenarioElementsLocalizable(url: string)
    requires !IsRelativeUrl(url)
    ensures var script := Element("script", map["src" := url], []);
            Localizable(Script, script) && AssetUrl(Script, script) == url
    ensures var link := Element("link", map["href" := url], ["stylesheet"]);
            Localizable(Stylesheet, link) && AssetUrl(Stylesheet, link) == url
  {
  }

  /** In the worked configuration a URL's `.js` and `.css` copies are two
      different files. */
  lemma ScenarioKindsApart(hash: Hasher, url: string)
    requires IsSha256Hex(hash)
    ensures var cfg := Config(true, true, "vendor", "site");
            AssetDestination(cfg, hash, Script, url) != AssetDestination(cfg, hash, Stylesheet, url)
  {
    var cfg := Config(true, true, "vendor", "site");
    assert !EndsWith("site", "/") by { assert "site"[3] != '/'; }
    assert !EndsWith("vendor", "/") by { assert "vendor"[5] != '/'; }
    DestinationLayout(cfg, hash, Script, url);
    DestinationLayout(cfg, hash, Stylesheet, url);
    assert |AssetDestination(cfg, hash, Script, url)| != |AssetDestination(cfg, hash, Stylesheet, url)|;
  }

  /** A page of one localizable element whose copy is missing and whose
      fetch succeeds: its URL is the one request and the copy exists after. */
  lemma OneAssetFetched(cfg: Config, hash: Hasher, page: Option<string>, kind: Kind, n: Node, fs: set<string>, online: Network)
    requires Enabled(cfg, kind) && Localizable(kind, n)
    requires AssetDestination(cfg, hash, kind, AssetUrl(kind, n)) !in fs && online(AssetUrl(kind, n))
    ensures var r := HtmlProc(cfg, hash, page, [n], fs, online);
            && r.Processed? && r.requests == [AssetUrl(kind, n)]
            && r.fs == fs + {AssetDestination(cfg, hash, kind, AssetUrl(kind, n))}
  {
    OneAssetScan(cfg, hash, page, kind, n);
    FetchOneMissing(AssetUrl(kind, n), AssetDestination(cfg, hash, kind, AssetUrl(kind, n)), fs, online);
  }
}

=== FILE: strings.dfy ===
/** The handful of Python string operations the plugin relies on, with
    Python's meaning: prefix and suffix tests, `str.split` on a one-character
    separator, its inverse `str.join`, character counting and `s * k`. */
module Strings {

  /** `s.startswith(prefix)` */
  predicate StartsWith(s: string, prefix: string)
  {
    |prefix| <= |s| && s[..|prefix|] == prefix
  }

  /** `s.endswith(suffix)` */
  predicate EndsWith(s: string, suffix: string)
  {
    |suffix| <= |s| && s[|s| - |suffix|..] == suffix
  }

  /** `s.count(c)` for a single character. */
  function Count(s: string, c: char): nat
  {
    if |s| == 0 then 0 else (if s[0] == c then 1 else 0) + Count(s[1..], c)
  }

  /** `s.split(sep)`: the runs of characters between separators, empty runs
      included, so that a string with k separators has k + 1 parts. */
  function Split(s: string, sep: char): (parts: seq<string>)
    ensures |parts| == Count(s, sep) + 1
    ensures forall i :: 0 <= i < |parts| ==> sep !in parts[i]
  {
    if |s| == 0 then [""]
    else
      var rest := Split(s[1..], sep);
      if s[0] == sep then [""] + rest
      else [[s[0]] + rest[0]] + rest[1..]
  }

  /** `sep.join(parts)` */
  function Join(parts: seq<string>, sep: char): string
    requires |parts| > 0
  {
    if |parts| == 1 then parts[0] else parts[0] + [sep] + Join(parts[1..], sep)
  }

  /** Joining the parts of a split with the same separator gives back the
      original string: Split loses nothing. */
  lemma {:induction false} JoinSplit(s: string, sep: char)
    ensures Join(Split(s, sep), sep) == s
  {
    if |s| > 0 {
      var rest := Split(s[1..], sep);
      JoinSplit(s[1..], sep);
      if s[0] == sep {
        assert Split(s, sep) == [""] + rest;
        assert ([""] + rest)[1..] == rest;
      } else {
        var parts := [[s[0]] + rest[0]] + rest[1..];
        assert Split(s, sep) == parts;
        if |rest| == 1 {
          assert Join(parts, sep) == [s[0]] + rest[0];
        } else {
          assert parts[1..] == rest[1..];
          assert Join(parts, sep) == [s[0]] + rest[0] + [sep] + Join(rest[1..], sep);
          assert Join(rest, sep) == rest[0] + [sep] + Join(rest[1..], sep);
        }
      }
    }
  }

  /** `s * k` */
  function Repeat(s: string, k: nat): string
  {
    if k == 0 then "" else s + Repeat(s, k - 1)
  }
}

=== FILE: wrappers.dfy ===
/** The optional-value datatype used wherever the plugin reads something that
    may be absent (a dictionary lookup, an attribute, a page). */
module Wrappers {

  datatype Option<+T> = None | Some(value: T)

  /** `d.get(k)` on a Dafny map: the value at `k`, or None when `k` is absent. */
  function Get<K, V>(m: map<K, V>, k: K): (r: Option<V>)
    ensures r.Some? <==> k in m
    ensures r.Some? ==> r.value == m[k]
  {
    if k in m then Some(m[k]) else None
  }
}
